=== FILE: README.md ===
# Chatbot conversation store and client reducers, in Dafny

This project models the logic of a small chatbot made of two parts.

The first part is a FastAPI backend backed by SQLite. It stores conversations, their messages and feedback on answers. It also keeps an in-memory cache, `active_conversations`, of each conversation's role/content list. The model treats the backend as a state machine. The state `Store.Store` is:
- the conversations table, in primary-key order, with each conversation's messages in creation order;
- the feedback table;
- the cache;
- the next message key;
- a logical clock that stands for `updated_at`.

Each endpoint is a pure function from a state and its request to a new state and either a reply or an HTTP status: chat, clear, feedback, system message, delete, the two listings and the export. The LLM's answer is an input: a text, or a failure. So are freshly generated conversation ids.

The second part is a React client. The chat window (`App.jsx`) and the history panel (`ConversationHistory.jsx`) become pure reducers. Each handler takes the component state and the outcome of its awaited request (`Done(payload)` or `Failed`). It returns the new state and the request it sent, if any.

Layout:
- `wrappers.dfy`: optional values and request outcomes.
- `text.dfy`: Python's `str.split()`/`" ".join`, JavaScript's `trim()` and ASCII upper-casing.
- `records.dfy`: the rows of `database.py` and their defaults.
- `store.dfy`: the backend state, `get_or_create_conversation_in_db` and `get_conversation_messages`.
- `endpoints.dfy`: the endpoints.
- `store_invariant.dfy`: the invariant every endpoint keeps, including the claim that the cache mirrors the database.
- `backend_properties.dfy`: properties relating several requests.
- `chat_view.dfy`: the chat window.
- `history_view.dfy`: the history panel.

Main results:
- **The cache is a faithful cache, on every reachable state.** From an empty database, after any sequence of requests, every cached list equals the role/content list stored for an active conversation with that id (`StoreInvariant.CacheMirrorsDatabase`). This holds even when the LLM call fails. In that case the user's message is already committed, and it is also appended to the cached list: the list held by the handler is the cached list itself. The proof depends on an invariant: every stored conversation starts with its system message. Without it, `update_system_message` would insert a system entry at the head of the cache while the database appends one at the end.
- **Feedback.** Each message has at most one feedback row, and a repeat submission overwrites it.
- **Delete.** A deleted conversation refuses chat with 400 and is no longer listed.
- **Listings.** A page of the conversation listing has exactly as many entries as SQLite's `OFFSET`/`LIMIT` yields, is newest first, contains only active conversations, and has distinct ids. A listing shown in the panel can have exactly one entry deleted, and at most one entry highlighted.

## Model

| member | source | states |
|---|---|---|
| Text.Split | Chatbot/backend/app.py:185 | every word `split()` yields is non-empty and free of Python white space |
| Text.SplitNormalizes | Chatbot/backend/app.py:185-186 | joining the words of `split()` with single spaces equals an independent character-by-character definition: leading and trailing white space dropped and every inner run of it collapsed to one space |
| Text.SplitJoin | Chatbot/backend/app.py:185-186 | splitting words joined by single spaces gives back exactly those words |
| Text.Trim | Chatbot/frontend/chatbotui/src/App.jsx:60 | `trim()` is no longer than its input and neither starts nor ends with white space |
| Text.TrimIsInfix | Chatbot/frontend/chatbotui/src/App.jsx:60 | what `trim()` keeps is one infix of the input, with only white space cut before and after it |
| Text.Upper | Chatbot/backend/app.py:330 | `upper()` leaves no ASCII lower-case letter, maps each to the capital at the same place in the alphabet, and keeps every other character |
| Text.TrimEmptyIffBlank | Chatbot/frontend/chatbotui/src/App.jsx:60 | `trim()` is empty exactly when every character is JavaScript white space |
| Store.Find | Chatbot/backend/app.py:98 | the lookup yields the first row with the id, and none exactly when no row has it |
| Store.Commit | Chatbot/backend/database.py:25 | committing a row changes that row alone; `updated_at` moves to the clock only if a column value really changed |
| Records.IsNew | Chatbot/backend/database.py:21-27 | a conversation as created: the given id, the default title and system message, active, and exactly one message, the default system message |
| Records.Fresh | Chatbot/backend/database.py:21-27 | the inserted row is new in that sense, with the given key, clock value and message key |
| Store.Insert | Chatbot/backend/database.py:21-27 | a new conversation row is appended with the defaults and one system message, keyed by the next message id |
| Store.GetOrCreate | Chatbot/backend/app.py:96-114 | an existing conversation is returned with the state untouched; a missing one is appended as a fresh conversation with one system message, and the cache is unchanged |
| Store.GetOrCreateIdempotent | Chatbot/backend/app.py:96-114 | a second get-or-create of the same id changes nothing |
| Store.ConversationTurns | Chatbot/backend/app.py:116-135 | a cached list is returned as is; otherwise the stored messages' role/content pairs are returned and cached |
| Endpoints.Title | Chatbot/backend/app.py:185-186 | with fewer than five words the title is the message; otherwise it is the message's first five words joined by single spaces, followed by "..." |
| Endpoints.AddMessage | Chatbot/backend/app.py:156-169 | one message is appended to one conversation, the cache entry is replaced, and the next message key advances |
| Endpoints.Exchange | Chatbot/backend/app.py:151-208 | the reply is Ok iff the LLM answered, else 500. Stored messages grow by user then assistant, or by the user message alone, and earlier ones are kept. The cache grows in step. The title changes only on the first answered exchange. The returned id is the assistant message's |
| Endpoints.Chat | Chatbot/backend/app.py:140-153 | an inactive conversation gets 400 and only get-or-create's effect; an active one runs the exchange on the cached history, or on the stored history when uncached |
| Endpoints.Deactivate | Chatbot/backend/app.py:214-222 | the conversation with the id, if any, becomes inactive and every other row is unchanged; the id leaves the cache |
| Endpoints.Clear | Chatbot/backend/app.py:211-243 | the old conversation is deactivated and evicted. A new active conversation with one system message is stored and cached, and its id returned; an id already in the table gives 500, and then the cache is the old one less the old id |
| Endpoints.Upsert | Chatbot/backend/app.py:255-268 | after the write the message's rating is the submitted one; a second submission adds no row |
| Endpoints.UpsertKeepsOthers | Chatbot/backend/app.py:255-268 | rating one message leaves every other message's rows and rating as they were |
| Endpoints.MessageExists | Chatbot/backend/app.py:250 | the lookup of the message key over every conversation's messages; a negative key never matches |
| Endpoints.SubmitFeedback | Chatbot/backend/app.py:246-270 | success when some stored message has the id, else 404 with nothing changed; on success only the feedback table changes: that message then holds the submitted rating, and every other message keeps its row count and its rating |
| Endpoints.FirstSystem | Chatbot/backend/app.py:280-283 | finds the first stored message with role system, and none exactly when there is no such message |
| Endpoints.StoredWithSystem | Chatbot/backend/app.py:280-293 | the first system message gets the new text, or one is appended when there is none; the visible messages are unchanged |
| Endpoints.WithSystemTurn | Chatbot/backend/app.py:301-307 | the cached list starts with the new system turn; a leading system turn is replaced, anything else is kept behind it |
| Endpoints.WithSystemTurnLastWins | Chatbot/backend/app.py:301-307 | two updates of a cached list leave it as the second update alone would |
| Endpoints.SetSystemMessage | Chatbot/backend/app.py:279-307 | only the target row changes (system message column and stored system message); a cached conversation's list is updated and an uncached one stays uncached |
| Endpoints.UpdateSystemMessage | Chatbot/backend/app.py:273-309 | always succeeds, creating the conversation when missing, then updates it |
| Endpoints.Visible | Chatbot/backend/app.py:329 | keeps exactly the messages whose role is not system |
| Endpoints.VisibleAppend | Chatbot/backend/app.py:370-371 | the filter is stable: a message added last appears last, unless it is a system message |
| Endpoints.VisibleUpdate | Chatbot/backend/app.py:286 | rewriting a system message does not change what is listed or exported |
| Endpoints.Delete | Chatbot/backend/app.py:384-399 | 404 iff the id is unknown, with nothing changed; otherwise only that row's active flag is cleared (messages kept) and it leaves the cache |
| Endpoints.PageSize | Chatbot/backend/app.py:341 | the number of rows `offset(skip).limit(limit)` yields: all rows after the offset when the limit is negative or covers them, else exactly `limit` |
| Endpoints.Window | Chatbot/backend/app.py:341 | the window has exactly `PageSize` elements, the k-th being element offset + k of the input, where a negative skip counts as 0 |
| Endpoints.InsertByRecency | Chatbot/backend/app.py:340 | inserting into a newest-first list keeps it newest first and adds exactly one element |
| Endpoints.ByRecency | Chatbot/backend/app.py:340 | the sort is newest first and a permutation |
| Endpoints.ActiveOnly | Chatbot/backend/app.py:339 | keeps exactly the active conversations |
| Endpoints.Ranked | Chatbot/backend/app.py:338-341 | the active conversations, newest first, and no others |
| Endpoints.ListConversations | Chatbot/backend/app.py:335-351 | exactly `PageSize(skip, limit, number of active conversations)` summaries, newest first; the k-th summarises row offset + k of the active conversations ranked newest first (`IsListing`) |
| Endpoints.ListingIsActive | Chatbot/backend/app.py:338-339 | every listed summary is that of an active stored conversation |
| Endpoints.ListingIsComplete | Chatbot/backend/app.py:338-341 | without a window every active conversation is listed |
| Endpoints.ListingFacts | Chatbot/backend/app.py:338-341 | the window of the ranking holds active stored conversations, newest first |
| Endpoints.ListMessages | Chatbot/backend/app.py:354-381 | 404 iff the id is unknown; otherwise exactly `PageSize` messages, the k-th being the (offset + k)-th non-system message in creation order, and every non-system message without a window; inactive conversations are served too |
| Endpoints.ClearedConversationListsNothing | Chatbot/backend/app.py:224-236 | the conversation clear opens holds only its system message, so listing its messages yields nothing |
| Endpoints.Line | Chatbot/backend/app.py:330 | a line is the upper-cased role, ": ", the content and a blank line; role and content can be read back at fixed positions |
| Endpoints.Render | Chatbot/backend/app.py:328-330 | the transcript has at least four characters per message and is empty exactly when there is no message |
| Endpoints.RenderAppend | Chatbot/backend/app.py:328-330 | the transcript of a longer list is the shorter one's transcript followed by the new line |
| Endpoints.TranscriptStep | Chatbot/backend/app.py:328-330 | each message adds its line to the transcript exactly when it is not a system message |
| Endpoints.Transcript | Chatbot/backend/app.py:327-330 | the loop writes the transcript of the non-system messages, in order |
| Endpoints.Export | Chatbot/backend/app.py:312-332 | 404 iff the id is unknown; otherwise the transcript of the non-system messages |
| StoreInvariant.EmptyInv | Chatbot/backend/app.py:67-69 | the empty database with the empty cache satisfies the invariant |
| StoreInvariant.GetOrCreateKeepsInv | Chatbot/backend/app.py:96-114 | get-or-create keeps ids unique, system messages first and the cache a mirror |
| StoreInvariant.ChatKeepsInv | Chatbot/backend/app.py:140-208 | chat, answered or failed, keeps the invariant |
| StoreInvariant.ClearKeepsInv | Chatbot/backend/app.py:211-243 | clear keeps the invariant, including when the new id collides |
| StoreInvariant.FeedbackKeepsInv | Chatbot/backend/app.py:246-270 | feedback keeps at most one row per message |
| StoreInvariant.UpdateSystemMessageKeepsInv | Chatbot/backend/app.py:273-309 | the system message update keeps the cache equal to the stored list |
| StoreInvariant.DeleteKeepsInv | Chatbot/backend/app.py:384-399 | delete keeps the invariant |
| StoreInvariant.RunKeepsInv | Chatbot/backend/app.py:67-69 | every sequence of requests keeps the invariant |
| StoreInvariant.CacheMirrorsDatabase | Chatbot/backend/app.py:67-69 | after any requests from an empty database, a cached list equals the role/content list stored for an active conversation with that id |
| BackendProperties.DeletedRejectsChat | Chatbot/backend/app.py:145-149 | after a delete, chat on that id gets 400 and changes nothing |
| BackendProperties.DeletedNotListed | Chatbot/backend/app.py:387-397 | after a delete, no listing window contains that id |
| BackendProperties.RepeatFeedbackOverwrites | Chatbot/backend/app.py:257-259 | a second rating of a message replaces the first and leaves one row |
| BackendProperties.ChatReplyCanBeRated | Chatbot/backend/app.py:200-204 | the id a chat reply returns is accepted by the feedback endpoint |
| BackendProperties.TitleOnFirstExchange | Chatbot/backend/app.py:183-187 | on a new conversation the first answered message sets the title by the five-word rule |
| BackendProperties.PermutationKeepsUniqueIds | Chatbot/backend/database.py:22 | reordering rows keeps conversation ids distinct |
| BackendProperties.ListingHasDistinctIds | Chatbot/backend/app.py:338-341 | every listing of a consistent store has distinct conversation ids |
| ChatView.EnsureConversationId | Chatbot/frontend/chatbotui/src/App.jsx:23-27 | a missing or empty id is replaced by the fresh one; a present id and the rest of the state are kept |
| ChatView.MountAdoptsFreshId | Chatbot/frontend/chatbotui/src/App.jsx:7-27 | the window mounts empty, idle and without an id; the id effect gives it the fresh id, under which the next non-blank message is sent |
| ChatView.EnsureConversationIdSettles | Chatbot/frontend/chatbotui/src/App.jsx:23-27 | once given a non-empty id, the effect changes nothing on later runs |
| ChatView.LoadConversation | Chatbot/frontend/chatbotui/src/App.jsx:30-55 | success replaces the history with the stored messages, role to sender, content to text, id to id, in order, and adopts the id. Failure only ends loading. The handler never sets the input, so the draft is kept either way |
| ChatView.ShowsFeedback | Chatbot/frontend/chatbotui/src/App.jsx:292 | the feedback buttons are drawn exactly under a bubble whose sender is 'ai' |
| ChatView.FeedbackEnabled | Chatbot/frontend/chatbotui/src/App.jsx:292-306 | the buttons are drawn and not disabled, i.e. the bubble carries no rating yet |
| ChatView.LoadedFeedbackOnlyForAiRole | Chatbot/frontend/chatbotui/src/App.jsx:43 | a loaded entry offers feedback exactly when its stored role is 'ai' |
| ChatView.SendMessage | Chatbot/frontend/chatbotui/src/App.jsx:57-97 | blank input: nothing changes and nothing is sent. Otherwise the user's bubble is appended. On success the reply's bubble with its id follows and the input clears; on failure the input stays. Loading ends false |
| ChatView.BlankInputSendsNothing | Chatbot/frontend/chatbotui/src/App.jsx:60 | input made only of white space leaves the state as it was and sends nothing |
| ChatView.ClearConversation | Chatbot/frontend/chatbotui/src/App.jsx:100-118 | no id: no-op. Success adopts the returned id and empties the history; failure changes nothing |
| ChatView.ClearedWindowMatchesServer | Chatbot/frontend/chatbotui/src/App.jsx:100-118 | after the server clears and opens a fresh conversation, the emptied window is exactly what loading that conversation shows |
| ChatView.StartNewConversation | Chatbot/frontend/chatbotui/src/App.jsx:121-126 | the history empties and the fresh id is adopted; input and loading are kept |
| ChatView.StartedConversationKeepsId | Chatbot/frontend/chatbotui/src/App.jsx:121-126 | after starting a conversation with a non-empty id the id effect changes nothing, and the next message is sent under that id |
| ChatView.SendFeedback | Chatbot/frontend/chatbotui/src/App.jsx:129-168 | without an id nothing changes and nothing is sent. Otherwise the rating is sent; on success only the target bubble gets it, and failure changes nothing |
| ChatView.RatedBubbleIsDisabled | Chatbot/frontend/chatbotui/src/App.jsx:296-306 | after a successful rating the bubble's buttons are disabled |
| ChatView.ReplyBubbleCanBeRated | Chatbot/frontend/chatbotui/src/App.jsx:86-89 | the reply bubble of a successful send offers feedback, which is sent for the server's message id |
| HistoryView.View | Chatbot/frontend/chatbotui/src/ConversationHistory.jsx:72-105 | hidden iff not shown; when shown, the spinner while loading, then the error text if there is an error, then the empty notice iff the list is empty, else the list itself |
| HistoryView.Fetch | Chatbot/frontend/chatbotui/src/ConversationHistory.jsx:15-31 | success replaces the list and clears the error; failure keeps the list and sets the message; loading ends false |
| HistoryView.Toggle | Chatbot/frontend/chatbotui/src/ConversationHistory.jsx:9-13 | the flag flips; a fetch happens exactly when the panel becomes visible |
| HistoryView.FirstPressFetches | Chatbot/frontend/chatbotui/src/ConversationHistory.jsx:4-13 | the panel mounts hidden; the first press requests the list and shows its outcome, not the spinner |
| HistoryView.OpenedPanelHasSettled | Chatbot/frontend/chatbotui/src/ConversationHistory.jsx:72-80 | an opened panel shows the error or the fetched list, never the spinner |
| HistoryView.PressesFetchOnEveryOpening | Chatbot/frontend/chatbotui/src/ConversationHistory.jsx:9-13 | from hidden, n presses fetch ceil(n/2) times and leave the panel open iff n is odd |
| HistoryView.WithoutMembers | Chatbot/frontend/chatbotui/src/ConversationHistory.jsx:50 | the filter keeps exactly the entries with another id |
| HistoryView.WithoutAppend | Chatbot/frontend/chatbotui/src/ConversationHistory.jsx:50 | the filter is stable: the kept entries stay in their order |
| HistoryView.WithoutAbsent | Chatbot/frontend/chatbotui/src/ConversationHistory.jsx:50 | deleting an id that is not listed leaves the list unchanged |
| HistoryView.WithoutRemovesOne | Chatbot/frontend/chatbotui/src/ConversationHistory.jsx:50 | with distinct ids, deleting entry i removes exactly that entry |
| HistoryView.DeleteConversation | Chatbot/frontend/chatbotui/src/ConversationHistory.jsx:33-55 | declined: no request and no change. Success filters the id out of the list; failure changes nothing |
| HistoryView.Highlighted | Chatbot/frontend/chatbotui/src/ConversationHistory.jsx:85-86 | an entry is highlighted exactly when its id is the current conversation id |
| HistoryView.OneHighlighted | Chatbot/frontend/chatbotui/src/ConversationHistory.jsx:86 | with distinct ids at most one entry is highlighted |
| HistoryView.DeleteAfterListing | Chatbot/frontend/chatbotui/src/ConversationHistory.jsx:50 | a listing fetched from a consistent store loses exactly the deleted entry, and highlights at most one |
| HistoryView.SelectHighlightsEntry | Chatbot/frontend/chatbotui/src/ConversationHistory.jsx:86-90 | after selecting entry k and loading it, entry k and no other is highlighted |

## Left out

- The Groq call (`query_groq_api`) is a foreign streaming client. Its result is an input of `Endpoints.Chat`: a text, or a failure that becomes 500.
- SQLAlchemy sessions, commit/rollback/refresh, FastAPI routing, CORS and the server start-up are not modelled. Each endpoint is one atomic transition. A database error other than the unique-id clash in clear is not modelled.
- Timestamps are left out. `created_at` order is sequence order. `updated_at` is a logical clock that advances only on a real column change. New conversation ids, from `datetime.now()` or `Date.now()`, are parameters.
- Endpoints.Clear: the new id's freshness is not a precondition. The code does not guarantee it, and a clash fails the commit with 500 after the old conversation was already deactivated and evicted. The model gives exactly that outcome.
- Export writes a file and returns it, and the client's download link is DOM work; only the transcript text is modelled.
- Text.Upper: covers ASCII letters only; Python's `upper()` also maps other letters, some to several characters.
- ChatView.LoadedFeedbackOnlyForAiRole: does not state which roles the server stores. Replies are stored as 'assistant' (app.py:175-176) and this client sends 'user', so in practice a loaded entry of its own conversations offers no feedback; that consequence is a remark, not a proved statement.
- Endpoints.Export: upper-cases only the ASCII letters of the role. Python's `upper()` also maps other letters, some to several characters. The role of a user message is whatever the chat request sent; this client always sends 'user', but another caller's role with non-ASCII letters would be exported differently.
- Endpoints.ListConversations: the order among conversations with equal `updated_at` is left open, as SQLite leaves it.
- The message listing, export and system-message update do not check the active flag, and neither does the model; the conversation listing does. `update_system_message` also creates a missing conversation, as the code does.
- The client's `updateSystemMessage` handler and the system-message text box are not modelled. The handler posts the id and the text, and on success closes the editor, which is view state only.
- The client's `exportConversation` handler is not modelled. It does nothing without an id, and otherwise opens the export link, which is DOM work.
- React rendering is not modelled: the scroll effect, the send button's enabled state, `formatDate`, console logging and the `confirm`/`alert` dialogs. The confirmation is a boolean parameter.
- Overlapping requests and late responses are not modelled. Each handler is one atomic step.
- ChatView.SendFeedback: the target bubble is named by its position. The code matches by object identity, and within one atomic step that picks out exactly that position.
- `config.js` holds constants that neither component imports.

=== FILE: backend_properties.dfy ===
/** Properties that relate several backend requests. */
module BackendProperties {
  import opened Wrappers
  import opened Records
  import opened Store
  import opened Endpoints
  import opened StoreInvariant

  /** After a delete, the conversation refuses new messages with 400 and nothing changes. */
  lemma DeletedRejectsChat(s: Store, input: ChatInput, llm: LlmOutcome)
    requires Delete(s, input.conversationId).reply.Ok?
    ensures var s' := Delete(s, input.conversationId).store;
            Chat(s', input, llm) == Step(s', Err(BadRequest))
  {
    var s' := Delete(s, input.conversationId).store;
    var i := Find(s.conversations, input.conversationId).value;
    FindSameIds(s.conversations, s'.conversations, input.conversationId);
  }

  /** After a delete, the conversation is no longer listed. */
  lemma DeletedNotListed(s: Store, cid: string, skip: int, limit: int)
    requires Inv(s)
    ensures forall e :: e in ListConversations(Delete(s, cid).store, skip, limit) ==> e.conversationId != cid
  {
    var s' := Delete(s, cid).store;
    DeleteKeepsInv(s, cid);
    FindSameIds(s.conversations, s'.conversations, cid);
    ListingIsActive(s', skip, limit);
    var r := ListConversations(s', skip, limit);
    forall e | e in r
      ensures e.conversationId != cid
    {
      var k :| 0 <= k < |r| && r[k] == e;
      var c :| c in s'.conversations && c.active && r[k] == SummaryOf(c);
      var j :| 0 <= j < |s'.conversations| && s'.conversations[j] == c;
      FindUnique(s'.conversations, j);
    }
  }

  /** Rating the same message twice leaves one feedback row, holding the second rating. */
  lemma RepeatFeedbackOverwrites(s: Store, mid: int, first: bool, second: bool)
    requires Inv(s) && MessageExists(s, mid)
    ensures var s1 := SubmitFeedback(s, mid, first).store;
            var s2 := SubmitFeedback(s1, mid, second).store;
            && Count(s2.feedback, mid) == 1
            && Rating(s2.feedback, mid) == Some(second)
            && |s2.feedback| == |s1.feedback|
  {
    assert Count(s.feedback, mid) <= 1;
  }

  /** The id a successful chat returns names a stored message, so rating it is accepted. */
  lemma ChatReplyCanBeRated(s: Store, input: ChatInput, llm: LlmOutcome, positive: bool)
    requires Chat(s, input, llm).reply.Ok?
    ensures var r := Chat(s, input, llm);
            SubmitFeedback(r.store, r.reply.value.messageId, positive).reply == Ok(())
  {
    var (s1, i) := GetOrCreate(s, input.conversationId);
    var r := Chat(s, input, llm);
    var after := r.store.conversations[i].messages;
    assert after[|after| - 1].id == r.reply.value.messageId;
    assert MessageExists(r.store, r.reply.value.messageId);
  }

  /** On a reachable state the title rule reads "the first exchange of the
      conversation": it applies exactly when the only stored message is the
      system message. */
  lemma TitleOnFirstExchange(s: Store, input: ChatInput, text: string)
    requires Inv(s)
    ensures var (s1, i) := GetOrCreate(s, input.conversationId);
            var row := s1.conversations[i];
            var r := Chat(s, input, Answer(text));
            row.active ==>
              r.store.conversations[i].title
                == if |row.messages| == 1 then Title(input.message) else row.title
  {
    var cid := input.conversationId;
    var (s1, i) := GetOrCreate(s, cid);
    GetOrCreateKeepsInv(s, cid);
    FindUnique(s1.conversations, i);
    if cid in s.cache {
      assert Mirrors(s1, cid);
    }
  }

  // ------------------------------------------------ listings have distinct ids

  lemma {:induction false} DistinctCountsOne(cs: seq<Conversation>, x: Conversation)
    requires UniqueIds(cs)
    ensures multiset(cs)[x] <= 1
  {
    if cs != [] {
      DistinctCountsOne(cs[1..], x);
      assert cs == [cs[0]] + cs[1..];
      if cs[0] == x {
        forall k | 0 <= k < |cs[1..]|
          ensures cs[1..][k] != x
        {
          assert cs[1..][k] == cs[k + 1];
        }
        assert x !in cs[1..];
      }
    }
  }

  lemma RepeatCountsTwo(r: seq<Conversation>, a: nat, b: nat)
    requires a < b < |r| && r[a] == r[b]
    ensures multiset(r)[r[a]] >= 2
  {
    assert r == r[..b] + [r[b]] + r[b + 1..];
    assert r[a] == r[..b][a];
    assert multiset(r[..b])[r[a]] >= 1;
  }

  /** A reordering keeps ids distinct. */
  lemma PermutationKeepsUniqueIds(cs: seq<Conversation>, r: seq<Conversation>)
    requires UniqueIds(cs) && multiset(r) == multiset(cs)
    ensures UniqueIds(r)
  {
    forall a, b | 0 <= a < b < |r|
      ensures r[a].conversationId != r[b].conversationId
    {
      if r[a] == r[b] {
        RepeatCountsTwo(r, a, b);
        DistinctCountsOne(cs, r[a]);
        assert false;
      } else {
        assert r[a] in multiset(cs) && r[b] in multiset(cs);
        var i :| 0 <= i < |cs| && cs[i] == r[a];
        var j :| 0 <= j < |cs| && cs[j] == r[b];
        assert i != j;
      }
    }
  }

  lemma {:induction false} ActiveOnlyKeepsUniqueIds(cs: seq<Conversation>)
    requires UniqueIds(cs)
    ensures UniqueIds(ActiveOnly(cs))
  {
    if cs != [] {
      var tail := cs[1..];
      assert UniqueIds(tail) by {
        forall a, b | 0 <= a < b < |tail|
          ensures tail[a].conversationId != tail[b].conversationId
        {
          assert tail[a] == cs[a + 1] && tail[b] == cs[b + 1];
        }
      }
      ActiveOnlyKeepsUniqueIds(tail);
      if cs[0].active {
        var rest := ActiveOnly(tail);
        forall k | 0 <= k < |rest|
          ensures rest[k].conversationId != cs[0].conversationId
        {
          var j :| 0 <= j < |tail| && tail[j] == rest[k];
          assert tail[j] == cs[j + 1];
        }
      }
    }
  }

  lemma RankedKeepsUniqueIds(cs: seq<Conversation>)
    requires UniqueIds(cs)
    ensures UniqueIds(Ranked(cs))
  {
    var active := ActiveOnly(cs);
    ActiveOnlyKeepsUniqueIds(cs);
    PermutationKeepsUniqueIds(active, ByRecency(active));
  }

  lemma WindowKeepsUniqueIds(xs: seq<Conversation>, skip: int, limit: int)
    requires UniqueIds(xs)
    ensures UniqueIds(Window(xs, skip, limit))
  {
    var lo := Offset(skip, |xs|);
    WindowIsSlice(xs, skip, limit);
    SliceKeepsUniqueIds(xs, lo, lo + PageSize(skip, limit, |xs|));
  }

  lemma SliceKeepsUniqueIds(xs: seq<Conversation>, lo: nat, hi: nat)
    requires lo <= hi <= |xs|
    requires UniqueIds(xs)
    ensures UniqueIds(xs[lo..hi])
  {
    var w := xs[lo..hi];
    forall a, b | 0 <= a < b < |w|
      ensures w[a].conversationId != w[b].conversationId
    {
      assert w[a] == xs[lo + a];
      assert w[b] == xs[lo + b];
    }
  }

  /** With distinct conversation ids in the table, every listing has distinct ids. */
  lemma ListingHasDistinctIds(s: Store, skip: int, limit: int)
    requires Inv(s)
    ensures var r := ListConversations(s, skip, limit);
            forall a, b :: 0 <= a < b < |r| ==> r[a].conversationId != r[b].conversationId
  {
    var ranked := Ranked(s.conversations);
    RankedKeepsUniqueIds(s.conversations);
    var w := Window(ranked, skip, limit);
    WindowKeepsUniqueIds(ranked, skip, limit);
    var r := ListConversations(s, skip, limit);
    assert r == Summaries(w);
    forall a, b | 0 <= a < b < |r|
      ensures r[a].conversationId != r[b].conversationId
    {
      assert r[a] == SummaryOf(w[a]) && r[b] == SummaryOf(w[b]);
    }
  }
}

=== FILE: chat_view.dfy ===
/** The chat window (App.jsx): each event handler is a pure function from the
    component state and the awaited request's outcome to the new state and
    the request it issued, if any. */
module ChatView {
  import opened Wrappers
  import opened Text
  import opened Records
  import opened Endpoints
  import Store

  datatype Rating = Positive | Negative

  /** One bubble of the chat history. `sender` is 'user' or 'ai' for bubbles
      the window creates, and the stored role for history loaded from the server. */
  datatype Entry = Entry(sender: string, text: string, id: Option<nat>, feedback: Option<Rating>)

  datatype ChatState = ChatState(
    input: string,
    history: seq<Entry>,
    loading: bool,
    conversationId: Option<string>)

  datatype Request =
    | ChatRequest(message: string, role: string, conversationId: Option<string>)
    | LoadRequest(selected: string)
    | ClearRequest(current: string)
    | FeedbackRequest(conversationId: Option<string>, messageId: nat, isPositive: bool)

  /** The state a handler leaves and the request it sent. */
  datatype Effect = Effect(state: ChatState, request: Option<Request>)

  const UserSender: string := "user"
  const AiSender: string := "ai"

  const Initial: ChatState := ChatState("", [], false, None)

  /** JavaScript truthiness of the conversation id: null and '' are false. */
  predicate HasConversation(id: Option<string>) {
    id.Some? && id.value != ""
  }

  /** JavaScript truthiness of a message id: undefined and 0 are false. */
  predicate HasMessageId(e: Entry) {
    e.id.Some? && e.id.value != 0
  }

  /** The feedback buttons are rendered for this entry. */
  predicate ShowsFeedback(e: Entry) {
    e.sender == AiSender
  }

  /** The feedback buttons are rendered and not disabled. */
  predicate FeedbackEnabled(e: Entry) {
    ShowsFeedback(e) && e.feedback.None?
  }

  /** The effect that gives the window an id: a missing id is replaced by
      `freshId` (`Date.now().toString()`), a present one is kept. */
  function EnsureConversationId(st: ChatState, freshId: string): (r: ChatState)
    ensures HasConversation(st.conversationId) ==> r == st
    ensures !HasConversation(st.conversationId) ==> r.conversationId == Some(freshId)
    ensures r.input == st.input && r.history == st.history && r.loading == st.loading
  {
    if !HasConversation(st.conversationId) then st.(conversationId := Some(freshId)) else st
  }

  /** On mount the window is empty and idle, and the id effect gives it the
      fresh id; from then on a non-blank message is sent under that id. */
  lemma MountAdoptsFreshId(freshId: string, text: string)
    requires freshId != "" && Trim(text) != ""
    ensures var st := EnsureConversationId(Initial, freshId);
            && st == ChatState("", [], false, Some(freshId))
            && SendMessage(st.(input := text), Failed).request == Some(ChatRequest(text, UserSender, Some(freshId)))
  {
  }

  /** Running the effect again changes nothing, whatever time it reads. */
  lemma EnsureConversationIdSettles(st: ChatState, freshId: string, later: string)
    requires freshId != ""
    ensures HasConversation(EnsureConversationId(st, freshId).conversationId)
    ensures EnsureConversationId(EnsureConversationId(st, freshId), later) == EnsureConversationId(st, freshId)
  {
  }

  /** A stored message as the window shows it. */
  function EntryOf(m: Message): Entry {
    Entry(m.role, m.content, Some(m.id), None)
  }

  function Entries(ms: seq<Message>): (es: seq<Entry>)
    ensures |es| == |ms|
  {
    seq(|ms|, k requires 0 <= k < |ms| => EntryOf(ms[k]))
  }

  /** `loadConversation(selectedId)`. */
  function LoadConversation(st: ChatState, selectedId: string, outcome: Outcome<seq<Message>>): (r: Effect)
    ensures r.request == Some(LoadRequest(selectedId))
    ensures !r.state.loading && r.state.input == st.input
    ensures outcome.Failed? ==> r.state == st.(loading := false)
    ensures outcome.Done? ==>
              && r.state.conversationId == Some(selectedId)
              && |r.state.history| == |outcome.payload|
              && forall k :: 0 <= k < |outcome.payload| ==>
                   var e, m := r.state.history[k], outcome.payload[k];
                   e.sender == m.role && e.text == m.content && e.id == Some(m.id) && e.feedback.None?
  {
    match outcome
    case Done(ms) => Effect(st.(history := Entries(ms), conversationId := Some(selectedId), loading := false),
                            Some(LoadRequest(selectedId)))
    case Failed => Effect(st.(loading := false), Some(LoadRequest(selectedId)))
  }

  /** Loaded history offers feedback exactly on messages stored with role
      'ai'. (Remark, not stated here: `Endpoints.Exchange` stores replies as
      'assistant', so a reply loaded back offers no feedback.) */
  lemma LoadedFeedbackOnlyForAiRole(st: ChatState, selectedId: string, ms: seq<Message>)
    ensures var h := LoadConversation(st, selectedId, Done(ms)).state.history;
            forall k :: 0 <= k < |h| ==> (FeedbackEnabled(h[k]) <==> ms[k].role == AiSender)
  {
  }

  /** `sendMessage`: ignored for blank input; otherwise the user's bubble is
      added at once, and the reply's bubble only when the request succeeded. */
  function SendMessage(st: ChatState, outcome: Outcome<ChatReply>): (r: Effect)
    ensures Trim(st.input) == "" ==> r == Effect(st, None)
    ensures Trim(st.input) != "" ==>
              && r.request == Some(ChatRequest(st.input, UserSender, st.conversationId))
              && !r.state.loading
              && r.state.conversationId == st.conversationId
              && |r.state.history| == |st.history| + (if outcome.Done? then 2 else 1)
              && r.state.history[..|st.history|] == st.history
              && r.state.history[|st.history|] == Entry(UserSender, st.input, None, None)
              && (outcome.Done? ==>
                    && r.state.history[|st.history| + 1]
                         == Entry(AiSender, outcome.payload.response, Some(outcome.payload.messageId), None)
                    && r.state.input == "")
              && (outcome.Failed? ==> r.state.input == st.input)
  {
    if Trim(st.input) == "" then Effect(st, None)
    else
      var request := ChatRequest(st.input, UserSender, st.conversationId);
      var withUser := st.history + [Entry(UserSender, st.input, None, None)];
      match outcome
      case Done(reply) =>
        var bubble := Entry(AiSender, reply.response, Some(reply.messageId), None);
        Effect(st.(history := withUser + [bubble], input := "", loading := false), Some(request))
      case Failed =>
        Effect(st.(history := withUser, loading := false), Some(request))
  }

  /** Input made only of white space never reaches the server. */
  lemma BlankInputSendsNothing(st: ChatState, outcome: Outcome<ChatReply>)
    requires forall i :: 0 <= i < |st.input| ==> IsJsSpace(st.input[i])
    ensures SendMessage(st, outcome) == Effect(st, None)
  {
    TrimEmptyIffBlank(st.input);
  }

  /** `clearConversation`: needs an id; adopts the id the server returns. */
  function ClearConversation(st: ChatState, outcome: Outcome<string>): (r: Effect)
    ensures !HasConversation(st.conversationId) ==> r == Effect(st, None)
    ensures HasConversation(st.conversationId) ==>
              && r.request == Some(ClearRequest(st.conversationId.value))
              && (outcome.Failed? ==> r.state == st)
              && (outcome.Done? ==>
                    r.state == st.(conversationId := Some(outcome.payload), history := []))
  {
    if !HasConversation(st.conversationId) then Effect(st, None)
    else
      var request := ClearRequest(st.conversationId.value);
      match outcome
      case Done(newId) => Effect(st.(conversationId := Some(newId), history := []), Some(request))
      case Failed => Effect(st, Some(request))
  }

  /** Clearing agrees with the server: when `Clear` opens the fresh
      conversation `newId`, the emptied window is exactly what loading `newId`
      (GET .../messages with the default page) shows, and reloading it
      only ends the loading flag. */
  lemma ClearedWindowMatchesServer(st: ChatState, s: Store.Store, newId: string)
    requires HasConversation(st.conversationId)
    requires Store.Find(s.conversations, newId).None?
    ensures var step := Clear(s, st.conversationId.value, newId);
            var st' := ClearConversation(st, Done(newId)).state;
            && step.reply == Ok(newId)
            && ListMessages(step.store, newId, 0, 50) == Ok([])
            && st'.history == Entries([])
            && st'.conversationId == Some(newId)
            && LoadConversation(st', newId, Done([])).state == st'.(loading := false)
  {
    ClearedConversationListsNothing(s, st.conversationId.value, newId, 0, 50);
  }

  /** `startNewConversation`: local only, no request. */
  function StartNewConversation(st: ChatState, freshId: string): (r: ChatState)
    ensures r.history == [] && r.conversationId == Some(freshId)
    ensures r.input == st.input && r.loading == st.loading
  {
    st.(conversationId := Some(freshId), history := [])
  }

  /** A new conversation already has its id: the id effect leaves it alone,
      and the next message is sent under that id, which the server then
      creates. */
  lemma StartedConversationKeepsId(st: ChatState, freshId: string, later: string, outcome: Outcome<ChatReply>)
    requires freshId != ""
    ensures var st' := StartNewConversation(st, freshId);
            && EnsureConversationId(st', later) == st'
            && (Trim(st.input) != "" ==>
                  SendMessage(st', outcome).request == Some(ChatRequest(st.input, UserSender, Some(freshId))))
  {
  }

  function RatingOf(positive: bool): Rating {
    if positive then Positive else Negative
  }

  /** `sendFeedback(message, isPositive)` on the bubble at position `i`. The
      source matches the bubble by object identity; within one atomic step
      that identifies exactly this position. */
  function SendFeedback(st: ChatState, i: nat, positive: bool, outcome: Outcome<()>): (r: Effect)
    requires i < |st.history|
    ensures !HasMessageId(st.history[i]) ==> r == Effect(st, None)
    ensures HasMessageId(st.history[i]) ==>
              && r.request == Some(FeedbackRequest(st.conversationId, st.history[i].id.value, positive))
              && (outcome.Failed? ==> r.state == st)
              && (outcome.Done? ==>
                    && r.state == st.(history := r.state.history)
                    && |r.state.history| == |st.history|
                    && r.state.history[i] == st.history[i].(feedback := Some(RatingOf(positive)))
                    && forall k :: 0 <= k < |st.history| && k != i ==> r.state.history[k] == st.history[k])
  {
    var target := st.history[i];
    if !HasMessageId(target) then Effect(st, None)
    else
      var request := FeedbackRequest(st.conversationId, target.id.value, positive);
      match outcome
      case Done(_) =>
        Effect(st.(history := st.history[i := target.(feedback := Some(RatingOf(positive)))]), Some(request))
      case Failed => Effect(st, Some(request))
  }

  /** Once a rating is recorded its buttons are disabled, so a bubble is rated at most once. */
  lemma RatedBubbleIsDisabled(st: ChatState, i: nat, positive: bool)
    requires i < |st.history| && HasMessageId(st.history[i])
    ensures !FeedbackEnabled(SendFeedback(st, i, positive, Done(())).state.history[i])
  {
  }

  /** A reply bubble from a successful send offers feedback, and the rating is
      sent for the id the server returned. */
  lemma ReplyBubbleCanBeRated(st: ChatState, reply: ChatReply, positive: bool)
    requires exists k :: 0 <= k < |st.input| && !IsJsSpace(st.input[k])
    requires reply.messageId != 0
    ensures var st' := SendMessage(st, Done(reply)).state;
            var i := |st'.history| - 1;
            && FeedbackEnabled(st'.history[i])
            && SendFeedback(st', i, positive, Failed).request
                 == Some(FeedbackRequest(st.conversationId, reply.messageId, positive))
  {
    TrimEmptyIffBlank(st.input);
  }
}

=== FILE: endpoints.dfy ===
/** The HTTP endpoints of the backend, each one atomic transition of the
    store. The LLM reply, new conversation ids and the request parameters are
    inputs; every failure is an HTTP status. */
module Endpoints {
  import opened Wrappers
  import opened Records
  import opened Text
  import opened Store

  /** The HTTP errors the endpoints raise: 400, 404 and 500. */
  datatype Status = BadRequest | NotFound | ServerError

  datatype Reply<T> = Ok(value: T) | Err(status: Status)

  /** The store an endpoint leaves behind and its answer. A failure can leave
      committed changes behind, so both are always reported. */
  datatype Step<T> = Step(store: Store, reply: Reply<T>)

  datatype ChatInput = ChatInput(message: string, role: string, conversationId: string)

  /** The streamed LLM completion, or the failure that `query_groq_api` reports as 500. */
  datatype LlmOutcome = Answer(text: string) | Unavailable

  datatype ChatReply = ChatReply(response: string, conversationId: string, messageId: nat)

  /** One entry of the conversation listing. */
  datatype Summary = Summary(key: nat, conversationId: string, title: string, updatedAt: nat)

  // ---------------------------------------------------------------- chat

  /** The title given on the first exchange: the first five words joined by
      single spaces plus "...", or the message itself when it has fewer words. */
  function Title(message: string): (t: string)
    ensures |Split(message)| < 5 ==> t == message
    ensures |Split(message)| >= 5 ==>
              && |t| >= 3 && t[|t| - 3..] == "..."
              && t[..|t| - 3] == JoinSpaced(Split(message)[..5])
              && Split(t[..|t| - 3]) == Split(message)[..5]
  {
    var words := Split(message);
    var firstFive := if |words| <= 5 then words else words[..5];
    if |firstFive| == 5 then
      var head := JoinSpaced(firstFive);
      assert firstFive == words[..5];
      SplitJoin(firstFive);
      assert (head + "...")[..|head|] == head;
      head + "..."
    else message
  }

  /** Stores `m` as the newest message of conversation row `i` and makes
      `turns` the cached list of `cid`. */
  function AddMessage(s: Store, i: nat, m: Message, cid: string, turns: seq<Turn>): (r: Store)
    requires i < |s.conversations|
    ensures |r.conversations| == |s.conversations|
    ensures forall j :: 0 <= j < |s.conversations| && j != i ==> r.conversations[j] == s.conversations[j]
    ensures r.conversations[i] == s.conversations[i].(messages := s.conversations[i].messages + [m])
    ensures r.cache == s.cache[cid := turns] && r.feedback == s.feedback
    ensures r.nextMessageId == m.id + 1 && r.clock == s.clock
  {
    var row := s.conversations[i];
    s.(conversations := s.conversations[i := row.(messages := row.messages + [m])],
       nextMessageId := m.id + 1,
       cache := s.cache[cid := turns])
  }

  /** The part of POST /chat/ after the active check, on conversation row `i`
      whose (cached or freshly read) list is `history`: the user's message is
      committed and appended to the very list object the cache holds before the
      LLM is asked; the reply and the first-exchange title are committed only
      when the LLM answered. */
  function Exchange(s: Store, i: nat, input: ChatInput, history: seq<Turn>, llm: LlmOutcome): (r: Step<ChatReply>)
    requires i < |s.conversations|
    ensures r.reply.Ok? <==> llm.Answer?
    ensures r.reply.Err? ==> r.reply.status == ServerError
    ensures |r.store.conversations| == |s.conversations|
    ensures forall j :: 0 <= j < |s.conversations| && j != i ==> r.store.conversations[j] == s.conversations[j]
    ensures r.store.feedback == s.feedback
    ensures var before := s.conversations[i].messages;
            var after := r.store.conversations[i].messages;
            && |after| == |before| + (if llm.Answer? then 2 else 1)
            && after[..|before|] == before
            && TurnOf(after[|before|]) == Turn(input.role, input.message)
            && (llm.Answer? ==> TurnOf(after[|before| + 1]) == Turn(AssistantRole, llm.text))
    ensures var row := s.conversations[i];
            var row' := r.store.conversations[i];
            && SameColumns(row', row.(title := row'.title))
            && row'.conversationId == row.conversationId
            && row'.title == (if llm.Answer? && |history| <= 1 then Title(input.message) else row.title)
    ensures r.store.cache
              == s.cache[input.conversationId := history + [Turn(input.role, input.message)]
                                                  + (if llm.Answer? then [Turn(AssistantRole, llm.text)] else [])]
    ensures r.reply.Ok? ==>
              var after := r.store.conversations[i].messages;
              && r.reply.value == ChatReply(llm.text, input.conversationId, after[|after| - 1].id)
              && r.reply.value.messageId >= s.nextMessageId
  {
    var cid := input.conversationId;
    var user := Message(s.nextMessageId, input.role, input.message);
    var pending := history + [TurnOf(user)];
    var s1 := AddMessage(s, i, user, cid, pending);
    match llm
    case Unavailable =>
      assert pending + [] == pending;
      Step(s1, Err(ServerError))
    case Answer(text) =>
      var reply := Message(s1.nextMessageId, AssistantRole, text);
      var s2 := if |pending| <= 2 then Commit(s1, i, s1.conversations[i].(title := Title(input.message))) else s1;
      var s3 := AddMessage(s2, i, reply, cid, pending + [TurnOf(reply)]);
      assert s3.conversations[i].messages == s.conversations[i].messages + [user, reply];
      Step(s3, Ok(ChatReply(text, cid, reply.id)))
  }

  /** POST /chat/: an inactive conversation is refused with 400 and nothing
      changes; otherwise the exchange is recorded against the cached list, or
      against the stored list when nothing is cached. */
  function Chat(s: Store, input: ChatInput, llm: LlmOutcome): (r: Step<ChatReply>)
    ensures var (s1, i) := GetOrCreate(s, input.conversationId);
            var row := s1.conversations[i];
            && (r.reply == Err(BadRequest) <==> !row.active)
            && (!row.active ==> r.store == s1)
            && (row.active ==>
                  var prior := if input.conversationId in s.cache then s.cache[input.conversationId]
                               else Turns(row.messages);
                  r == Exchange(s1, i, input, prior, llm))
  {
    var cid := input.conversationId;
    var (s1, i) := GetOrCreate(s, cid);
    if !s1.conversations[i].active then Step(s1, Err(BadRequest))
    else
      // get_conversation_messages caches `history` when it was not cached;
      // the exchange then stores its own extension of that same list under
      // `cid`, so only the list itself carries over.
      var history := ConversationTurns(s1, cid).1;
      Exchange(s1, i, input, history, llm)
  }

  // ---------------------------------------------------------------- clear

  /** The cache entry `clear_conversation` creates for a new conversation. */
  const InitialTurns: seq<Turn> := [Turn(SystemRole, DefaultSystemMessage)]

  /** Marks conversation `cid` inactive, if it exists, and evicts it from the
      cache: what both clearing and deleting do first. */
  function Deactivate(s: Store, cid: string): (r: Store)
    ensures |r.conversations| == |s.conversations|
    ensures forall j :: 0 <= j < |s.conversations| && Some(j) != Find(s.conversations, cid) ==>
              r.conversations[j] == s.conversations[j]
    ensures Find(s.conversations, cid).Some? ==>
              var i := Find(s.conversations, cid).value;
              r.conversations[i] == s.conversations[i].(active := false, updatedAt := r.conversations[i].updatedAt)
    ensures r.cache == s.cache - {cid}
    ensures r.feedback == s.feedback && r.nextMessageId == s.nextMessageId
  {
    var s1 := (
      if Find(s.conversations, cid).Some? then
        var i := Find(s.conversations, cid).value;
        Commit(s, i, s.conversations[i].(active := false))
      else s);
    s1.(cache := s1.cache - {cid})
  }

  /** POST /clear-conversation/: deactivate and evict `cid`, then create
      conversation `newId` (the server's timestamp). A `newId` already in the
      table violates the unique constraint: 500, after the deactivation was committed. */
  function Clear(s: Store, cid: string, newId: string): (r: Step<string>)
    ensures r.reply.Ok? <==> Find(s.conversations, newId).None?
    ensures r.reply.Ok? ==> r.reply.value == newId
    ensures r.reply.Err? ==> r.reply.status == ServerError
    ensures |r.store.conversations| == |s.conversations| + (if r.reply.Ok? then 1 else 0)
    ensures forall j :: 0 <= j < |s.conversations| ==>
              var c := s.conversations[j];
              var c' := r.store.conversations[j];
              && c'.key == c.key && c'.conversationId == c.conversationId
              && c'.title == c.title && c'.systemMessage == c.systemMessage && c'.messages == c.messages
              && c'.active == (c.active && Some(j) != Find(s.conversations, cid))
              && (Some(j) != Find(s.conversations, cid) ==> c' == c)
    ensures cid != newId || r.reply.Err? ==> cid !in r.store.cache
    ensures r.reply.Err? ==> r.store.cache == s.cache - {cid}
    ensures forall k :: k != cid && k != newId ==> (k in r.store.cache <==> k in s.cache)
    ensures forall k :: k != cid && k != newId && k in s.cache ==> r.store.cache[k] == s.cache[k]
    ensures r.reply.Ok? ==>
              && IsNew(r.store.conversations[|s.conversations|], newId)
              && newId in r.store.cache && r.store.cache[newId] == InitialTurns
    ensures r.store.feedback == s.feedback
  {
    var s2 := Deactivate(s, cid);
    FindSameIds(s.conversations, s2.conversations, newId);
    match Find(s2.conversations, newId)
    case Some(_) => Step(s2, Err(ServerError))
    case None =>
      var s3 := Insert(s2, newId);
      Step(s3.(cache := s3.cache[newId := InitialTurns]), Ok(newId))
  }

  // ---------------------------------------------------------------- feedback

  /** How many feedback rows rate message `mid`. */
  function Count(rows: seq<FeedbackRow>, mid: int): nat {
    if rows == [] then 0 else (if rows[0].messageId == mid then 1 else 0) + Count(rows[1..], mid)
  }

  /** The rating the first feedback row for `mid` holds (`.first()`). */
  function Rating(rows: seq<FeedbackRow>, mid: int): Option<bool> {
    if rows == [] then None
    else if rows[0].messageId == mid then Some(rows[0].isPositive)
    else Rating(rows[1..], mid)
  }

  /** Overwrite the first row for `mid`, or add one when there is none. */
  function Upsert(rows: seq<FeedbackRow>, mid: nat, positive: bool): (r: seq<FeedbackRow>)
    ensures Rating(r, mid) == Some(positive)
    ensures Count(r, mid) == if Count(rows, mid) == 0 then 1 else Count(rows, mid)
    ensures |r| == |rows| + (if Count(rows, mid) == 0 then 1 else 0)
  {
    if rows == [] then [FeedbackRow(mid, positive)]
    else if rows[0].messageId == mid then [rows[0].(isPositive := positive)] + rows[1..]
    else
      var rest := Upsert(rows[1..], mid, positive);
      assert ([rows[0]] + rest)[1..] == rest;
      [rows[0]] + rest
  }

  /** Rating one message leaves every other message's feedback rows as they were. */
  lemma {:induction false} UpsertKeepsOthers(rows: seq<FeedbackRow>, mid: nat, positive: bool, m: int)
    requires m != mid
    ensures Count(Upsert(rows, mid, positive), m) == Count(rows, m)
    ensures Rating(Upsert(rows, mid, positive), m) == Rating(rows, m)
  {
    var r := Upsert(rows, mid, positive);
    if rows != [] {
      assert r[1..] == (if rows[0].messageId == mid then rows[1..] else Upsert(rows[1..], mid, positive));
      UpsertKeepsOthers(rows[1..], mid, positive, m);
    }
  }

  /** Some stored message, in any conversation, has primary key `mid`; never
      so for a negative `mid`, since stored keys are natural numbers. */
  predicate MessageExists(s: Store, mid: int) {
    exists i, j :: 0 <= i < |s.conversations| && 0 <= j < |s.conversations[i].messages|
                   && s.conversations[i].messages[j].id == mid
  }

  /** POST /feedback/. The request's conversation id is never consulted. */
  function SubmitFeedback(s: Store, mid: int, positive: bool): (r: Step<()>)
    ensures r.reply == if MessageExists(s, mid) then Ok(()) else Err(NotFound)
    ensures r.reply.Err? ==> r.store == s
    ensures r.reply.Ok? ==>
              && Rating(r.store.feedback, mid) == Some(positive)
              && Count(r.store.feedback, mid) == (if Count(s.feedback, mid) == 0 then 1 else Count(s.feedback, mid))
              && (forall m :: m != mid ==> Count(r.store.feedback, m) == Count(s.feedback, m))
              && (forall m :: m != mid ==> Rating(r.store.feedback, m) == Rating(s.feedback, m))
              && r.store == s.(feedback := r.store.feedback)
  {
    if !MessageExists(s, mid) then Step(s, Err(NotFound))
    else
      var fb := Upsert(s.feedback, mid, positive);
      assert forall m :: m != mid ==> Count(fb, m) == Count(s.feedback, m) && Rating(fb, m) == Rating(s.feedback, m) by {
        forall m | m != mid {
          UpsertKeepsOthers(s.feedback, mid, positive, m);
        }
      }
      Step(s.(feedback := fb), Ok(()))
  }

  // ---------------------------------------------------------------- system message

  /** Index of the first stored system message (`.first()` on the role filter). */
  function FirstSystem(ms: seq<Message>): (r: Option<nat>)
    ensures r.Some? ==> r.value < |ms| && ms[r.value].role == SystemRole
    ensures r.Some? ==> forall j :: 0 <= j < r.value ==> ms[j].role != SystemRole
    ensures r.None? <==> forall j :: 0 <= j < |ms| ==> ms[j].role != SystemRole
  {
    if ms == [] then None
    else if ms[0].role == SystemRole then Some(0)
    else match FirstSystem(ms[1..])
      case None => None
      case Some(k) => Some(k + 1)
  }

  lemma FirstSystemSameRoles(ms: seq<Message>, ms': seq<Message>)
    requires |ms'| == |ms|
    requires forall j :: 0 <= j < |ms| ==> ms'[j].role == ms[j].role
    ensures FirstSystem(ms') == FirstSystem(ms)
  {
    var a, b := FirstSystem(ms), FirstSystem(ms');
    if a.Some? && b.Some? {
      assert !(a.value < b.value) && !(b.value < a.value);
    }
  }

  lemma FirstSystemAppend(ms: seq<Message>, m: Message)
    requires FirstSystem(ms).None? && m.role == SystemRole
    ensures FirstSystem(ms + [m]) == Some(|ms|)
  {
    assert forall j :: 0 <= j < |ms| ==> (ms + [m])[j] == ms[j];
    assert (ms + [m])[|ms|] == m;
  }

  /** The messages other than system ones, in creation order. */
  function Visible(ms: seq<Message>): (r: seq<Message>)
    ensures |r| <= |ms|
    ensures forall k :: 0 <= k < |r| ==> r[k].role != SystemRole && r[k] in ms
    ensures forall m :: m in ms && m.role != SystemRole ==> m in r
  {
    if ms == [] then []
    else if ms[0].role == SystemRole then Visible(ms[1..])
    else [ms[0]] + Visible(ms[1..])
  }

  /** The cached list after the system message is set: the first entry
      replaced when it is a system entry, a system entry inserted otherwise. */
  function WithSystemTurn(ts: seq<Turn>, text: string): (r: seq<Turn>)
    ensures |r| > 0 && r[0] == Turn(SystemRole, text)
    ensures r[1..] == if |ts| > 0 && ts[0].role == SystemRole then ts[1..] else ts
  {
    if |ts| > 0 && ts[0].role == SystemRole then ts[0 := Turn(SystemRole, text)]
    else [Turn(SystemRole, text)] + ts
  }

  /** Setting the system message twice keeps only the second. */
  lemma WithSystemTurnLastWins(ts: seq<Turn>, a: string, b: string)
    ensures WithSystemTurn(WithSystemTurn(ts, a), b) == WithSystemTurn(ts, b)
  {
    var once := WithSystemTurn(ts, a);
    assert once[1..] == (if |ts| > 0 && ts[0].role == SystemRole then ts[1..] else ts);
  }

  /** The stored messages after the system message is set: the first system
      message gets the new content, or a new system message is added last.
      Returns the list and the message key still free afterwards. */
  function StoredWithSystem(ms: seq<Message>, text: string, nextId: nat): (r: (seq<Message>, nat))
    ensures FirstSystem(r.0).Some? && r.0[FirstSystem(r.0).value].content == text
    ensures Visible(r.0) == Visible(ms)
    ensures FirstSystem(ms).Some? ==>
              var j := FirstSystem(ms).value;
              r == (ms[j := ms[j].(content := text)], nextId)
    ensures FirstSystem(ms).None? ==>
              && |r.0| == |ms| + 1 && r.0[..|ms|] == ms && r.0[|ms|].id == nextId
              && r.1 == nextId + 1
  {
    if FirstSystem(ms).Some? then
      var j := FirstSystem(ms).value;
      var ms' := ms[j := ms[j].(content := text)];
      VisibleUpdate(ms, j, text);
      FirstSystemSameRoles(ms, ms');
      (ms', nextId)
    else
      var m := Message(nextId, SystemRole, text);
      VisibleAppendSystem(ms, m);
      FirstSystemAppend(ms, m);
      assert (ms + [m])[..|ms|] == ms;
      (ms + [m], nextId + 1)
  }

  /** The part of POST /update-system-message/ after the conversation is
      found or created as row `i`. */
  function SetSystemMessage(s: Store, i: nat, cid: string, text: string): (r: Store)
    requires i < |s.conversations|
    ensures |r.conversations| == |s.conversations|
    ensures forall j :: 0 <= j < |s.conversations| && j != i ==> r.conversations[j] == s.conversations[j]
    ensures var row := s.conversations[i];
            var row' := r.conversations[i];
            && row' == row.(messages := row'.messages, systemMessage := text, updatedAt := row'.updatedAt)
            && row'.messages == StoredWithSystem(row.messages, text, s.nextMessageId).0
    ensures cid in r.cache <==> cid in s.cache
    ensures cid in s.cache ==> r.cache == s.cache[cid := WithSystemTurn(s.cache[cid], text)]
    ensures cid !in s.cache ==> r.cache == s.cache
    ensures r.feedback == s.feedback
  {
    var row := s.conversations[i];
    var (ms, next) := StoredWithSystem(row.messages, text, s.nextMessageId);
    var s1 := Commit(s, i, row.(messages := ms, systemMessage := text)).(nextMessageId := next);
    if cid in s1.cache then s1.(cache := s1.cache[cid := WithSystemTurn(s1.cache[cid], text)]) else s1
  }

  /** POST /update-system-message/: works on any conversation, active or not,
      creating it when missing. */
  function UpdateSystemMessage(s: Store, cid: string, text: string): (r: Step<()>)
    ensures r.reply == Ok(())
    ensures var (s1, i) := GetOrCreate(s, cid);
            r.store == SetSystemMessage(s1, i, cid, text)
  {
    var (s1, i) := GetOrCreate(s, cid);
    Step(SetSystemMessage(s1, i, cid, text), Ok(()))
  }

  lemma {:induction false} VisibleUpdate(ms: seq<Message>, j: nat, text: string)
    requires j < |ms| && ms[j].role == SystemRole
    ensures Visible(ms[j := ms[j].(content := text)]) == Visible(ms)
  {
    var ms' := ms[j := ms[j].(content := text)];
    if j > 0 {
      assert ms'[1..] == ms[1..][j - 1 := ms[j].(content := text)];
      VisibleUpdate(ms[1..], j - 1, text);
    } else {
      assert ms'[1..] == ms[1..];
    }
  }

  lemma {:induction false} VisibleAppend(ms: seq<Message>, m: Message)
    ensures Visible(ms + [m]) == Visible(ms) + (if m.role == SystemRole then [] else [m])
  {
    if ms != [] {
      assert (ms + [m])[1..] == ms[1..] + [m];
      VisibleAppend(ms[1..], m);
    } else {
      assert Visible([m]) == (if m.role == SystemRole then [] else [m]) + Visible([m][1..]);
    }
  }

  lemma VisibleAppendSystem(ms: seq<Message>, m: Message)
    requires m.role == SystemRole
    ensures Visible(ms + [m]) == Visible(ms)
  {
    VisibleAppend(ms, m);
  }

  // ---------------------------------------------------------------- delete

  /** DELETE /conversations/{id}: a soft delete that keeps the messages. */
  function Delete(s: Store, cid: string): (r: Step<()>)
    ensures r.reply.Err? <==> Find(s.conversations, cid).None?
    ensures r.reply.Err? ==> r.reply.status == NotFound && r.store == s
    ensures r.reply.Ok? ==>
              var i := Find(s.conversations, cid).value;
              && |r.store.conversations| == |s.conversations|
              && r.store.conversations[i] == s.conversations[i].(active := false, updatedAt := r.store.conversations[i].updatedAt)
              && (forall j :: 0 <= j < |s.conversations| && j != i ==> r.store.conversations[j] == s.conversations[j])
              && r.store.cache == s.cache - {cid}
              && r.store.feedback == s.feedback
  {
    if Find(s.conversations, cid).None? then Step(s, Err(NotFound))
    else Step(Deactivate(s, cid), Ok(()))
  }

  // ---------------------------------------------------------------- listings

  /** SQLite's OFFSET: a negative offset counts as zero. */
  function Offset(skip: int, n: nat): (lo: nat)
    ensures lo <= n
  {
    if skip <= 0 then 0 else if skip >= n then n else skip
  }

  /** How many of `n` rows `offset(skip).limit(limit)` returns: all rows past
      the offset, but no more than a non-negative limit. */
  function PageSize(skip: int, limit: int, n: nat): (k: nat)
    ensures Offset(skip, n) + k <= n
    ensures limit >= 0 ==> k <= limit
    ensures k < n - Offset(skip, n) ==> k == limit
  {
    var remaining := n - Offset(skip, n);
    if limit < 0 || limit >= remaining then remaining else limit
  }

  /** `offset(skip).limit(limit)`; SQLite reads a negative limit as no limit. */
  function Window<T>(xs: seq<T>, skip: int, limit: int): (w: seq<T>)
    ensures |w| == PageSize(skip, limit, |xs|)
    ensures limit >= 0 ==> |w| <= limit
    ensures Offset(skip, |xs|) + |w| <= |xs|
    ensures forall k :: 0 <= k < |w| ==> w[k] == xs[Offset(skip, |xs|) + k]
    ensures skip <= 0 && (limit < 0 || limit >= |xs|) ==> w == xs
  {
    var rest := xs[Offset(skip, |xs|)..];
    if limit < 0 || limit >= |rest| then rest else rest[..limit]
  }

  /** A page is the stretch of `xs` that starts at the offset and holds
      `PageSize` elements. */
  lemma WindowIsSlice<T>(xs: seq<T>, skip: int, limit: int)
    ensures Window(xs, skip, limit) == xs[Offset(skip, |xs|)..Offset(skip, |xs|) + PageSize(skip, limit, |xs|)]
  {
  }

  /** Every conversation is at least as recently updated as the next. */
  predicate NewestFirst(cs: seq<Conversation>) {
    forall a, b :: 0 <= a < b < |cs| ==> cs[a].updatedAt >= cs[b].updatedAt
  }

  function InsertByRecency(c: Conversation, cs: seq<Conversation>): (r: seq<Conversation>)
    requires NewestFirst(cs)
    ensures NewestFirst(r)
    ensures |r| == |cs| + 1
    ensures r[0] == c || (cs != [] && r[0] == cs[0])
    ensures multiset(r) == multiset(cs) + multiset{c}
  {
    if cs == [] || c.updatedAt >= cs[0].updatedAt then
      PrependNewest(c, cs);
      [c] + cs
    else
      NewestTail(cs);
      var rest := InsertByRecency(c, cs[1..]);
      InsertBehindHead(c, cs, rest);
      [cs[0]] + rest
  }

  /** Putting a conversation in front of a newest-first sequence whose head
      is no newer keeps it newest-first. */
  lemma PrependNewest(x: Conversation, cs: seq<Conversation>)
    requires NewestFirst(cs)
    requires cs != [] ==> x.updatedAt >= cs[0].updatedAt
    ensures NewestFirst([x] + cs)
  {
    var r := [x] + cs;
    forall a, b | 0 <= a < b < |r|
      ensures r[a].updatedAt >= r[b].updatedAt
    {
      if a == 0 && b > 1 {
        assert cs[0].updatedAt >= cs[b - 1].updatedAt;
      }
    }
  }

  lemma NewestTail(cs: seq<Conversation>)
    requires cs != [] && NewestFirst(cs)
    ensures NewestFirst(cs[1..])
  {
    var t := cs[1..];
    forall a, b | 0 <= a < b < |t|
      ensures t[a].updatedAt >= t[b].updatedAt
    {
      assert t[a] == cs[a + 1] && t[b] == cs[b + 1];
    }
  }

  /** The step of the insertion that goes behind the head: `rest` is the
      insertion of `c` into the tail. */
  lemma InsertBehindHead(c: Conversation, cs: seq<Conversation>, rest: seq<Conversation>)
    requires cs != [] && NewestFirst(cs) && c.updatedAt < cs[0].updatedAt
    requires NewestFirst(rest) && |rest| == |cs|
    requires rest[0] == c || (|cs| > 1 && rest[0] == cs[1])
    requires multiset(rest) == multiset(cs[1..]) + multiset{c}
    ensures NewestFirst([cs[0]] + rest)
    ensures multiset([cs[0]] + rest) == multiset(cs) + multiset{c}
  {
    assert |cs| > 1 ==> cs[0].updatedAt >= cs[1].updatedAt;
    PrependNewest(cs[0], rest);
    assert cs == [cs[0]] + cs[1..];
    assert multiset([cs[0]] + rest) == multiset{cs[0]} + multiset(rest);
  }

  /** `order_by(updated_at.desc())`. */
  function ByRecency(cs: seq<Conversation>): (r: seq<Conversation>)
    ensures NewestFirst(r)
    ensures multiset(r) == multiset(cs)
  {
    if cs == [] then []
    else
      assert cs == [cs[0]] + cs[1..];
      InsertByRecency(cs[0], ByRecency(cs[1..]))
  }

  /** How many conversations are active. */
  function ActiveCount(cs: seq<Conversation>): nat {
    if cs == [] then 0 else (if cs[0].active then 1 else 0) + ActiveCount(cs[1..])
  }

  /** `filter(active == True)`. */
  function ActiveOnly(cs: seq<Conversation>): (r: seq<Conversation>)
    ensures |r| == ActiveCount(cs)
    ensures |r| <= |cs|
    ensures forall c :: c in r <==> c in cs && c.active
  {
    if cs == [] then []
    else if cs[0].active then [cs[0]] + ActiveOnly(cs[1..])
    else ActiveOnly(cs[1..])
  }

  /** The active conversations, most recently updated first. */
  function Ranked(cs: seq<Conversation>): (r: seq<Conversation>)
    ensures NewestFirst(r)
    ensures |r| == ActiveCount(cs)
    ensures forall c :: c in r <==> c in cs && c.active
  {
    var active := ActiveOnly(cs);
    var r := ByRecency(active);
    assert forall c :: c in r <==> c in multiset(active);
    assert |r| == |multiset(r)| == |multiset(active)| == |active|;
    r
  }

  function SummaryOf(c: Conversation): Summary {
    Summary(c.key, c.conversationId, c.title, c.updatedAt)
  }

  function Summaries(cs: seq<Conversation>): (r: seq<Summary>)
    ensures |r| == |cs|
    ensures forall k :: 0 <= k < |cs| ==> r[k] == SummaryOf(cs[k])
  {
    seq(|cs|, k requires 0 <= k < |cs| => SummaryOf(cs[k]))
  }

  /** GET /conversations/ (defaults skip = 0, limit = 10): the active
      conversations, most recently updated first, cut to the window. */
  function ListConversations(s: Store, skip: int, limit: int): (r: seq<Summary>)
    ensures |r| == PageSize(skip, limit, ActiveCount(s.conversations))
    ensures limit >= 0 ==> |r| <= limit
    ensures forall a, b :: 0 <= a < b < |r| ==> r[a].updatedAt >= r[b].updatedAt
    ensures IsListing(r, Ranked(s.conversations), skip, limit)
  {
    var ranked := Ranked(s.conversations);
    SummariesOfWindow(ranked, skip, limit);
    Summaries(Window(ranked, skip, limit))
  }

  /** `r` is the page `offset(skip).limit(limit)` of the ranking `ranked`:
      the k-th entry summarises ranked row offset + k. */
  predicate IsListing(r: seq<Summary>, ranked: seq<Conversation>, skip: int, limit: int) {
    && |r| == PageSize(skip, limit, |ranked|)
    && Offset(skip, |ranked|) + |r| <= |ranked|
    && forall k :: 0 <= k < |r| ==> r[k] == SummaryOf(ranked[Offset(skip, |ranked|) + k])
  }

  lemma SummariesOfWindow(xs: seq<Conversation>, skip: int, limit: int)
    ensures IsListing(Summaries(Window(xs, skip, limit)), xs, skip, limit)
  {
  }

  /** Only active conversations are listed. */
  lemma ListingIsActive(s: Store, skip: int, limit: int)
    ensures var r := ListConversations(s, skip, limit);
            forall k :: 0 <= k < |r| ==> exists c :: c in s.conversations && c.active && r[k] == SummaryOf(c)
  {
    var w := Window(Ranked(s.conversations), skip, limit);
    var r := ListConversations(s, skip, limit);
    ListingFacts(s.conversations, skip, limit);
    assert r == Summaries(w);
    forall k | 0 <= k < |r|
      ensures exists c :: c in s.conversations && c.active && r[k] == SummaryOf(c)
    {
      var c := w[k];
      assert c in s.conversations && c.active;
      assert r[k] == SummaryOf(c);
    }
  }

  /** Without a window, every active conversation is listed. */
  lemma ListingIsComplete(s: Store)
    ensures forall c :: c in s.conversations && c.active ==> SummaryOf(c) in ListConversations(s, 0, -1)
  {
    var ranked := Ranked(s.conversations);
    ListingWhole(s.conversations, 0, -1);
    forall c | c in s.conversations && c.active
      ensures SummaryOf(c) in Summaries(ranked)
    {
      SummaryListed(ranked, c);
    }
  }

  lemma SummaryListed(cs: seq<Conversation>, c: Conversation)
    requires c in cs
    ensures SummaryOf(c) in Summaries(cs)
  {
    var k :| 0 <= k < |cs| && cs[k] == c;
    assert Summaries(cs)[k] == SummaryOf(c);
  }

  lemma ListingFacts(cs: seq<Conversation>, skip: int, limit: int)
    ensures var w := Window(Ranked(cs), skip, limit);
            && NewestFirst(w)
            && (forall k :: 0 <= k < |w| ==> w[k] in cs && w[k].active)
            && (skip <= 0 && (limit < 0 || limit >= |cs|) ==> forall c :: c in cs && c.active ==> c in w)
  {
    ListingNewest(cs, skip, limit);
    ListingMembers(cs, skip, limit);
    if skip <= 0 && (limit < 0 || limit >= |cs|) {
      ListingWhole(cs, skip, limit);
    }
  }

  lemma ListingNewest(cs: seq<Conversation>, skip: int, limit: int)
    ensures NewestFirst(Window(Ranked(cs), skip, limit))
  {
    var ranked := Ranked(cs);
    var lo := Offset(skip, |ranked|);
    WindowIsSlice(ranked, skip, limit);
    SliceNewest(ranked, lo, lo + PageSize(skip, limit, |ranked|));
  }

  lemma SliceNewest(cs: seq<Conversation>, lo: nat, hi: nat)
    requires lo <= hi <= |cs| && NewestFirst(cs)
    ensures NewestFirst(cs[lo..hi])
  {
    var w := cs[lo..hi];
    forall a, b | 0 <= a < b < |w|
      ensures w[a].updatedAt >= w[b].updatedAt
    {
      assert w[a] == cs[lo + a];
      assert w[b] == cs[lo + b];
    }
  }

  lemma ListingMembers(cs: seq<Conversation>, skip: int, limit: int)
    ensures var w := Window(Ranked(cs), skip, limit);
            forall k :: 0 <= k < |w| ==> w[k] in cs && w[k].active
  {
    var ranked := Ranked(cs);
    var w := Window(ranked, skip, limit);
    var lo := Offset(skip, |ranked|);
    forall k | 0 <= k < |w|
      ensures w[k] in cs && w[k].active
    {
      assert w[k] == ranked[lo + k];
      assert w[k] in ranked;
    }
  }

  /** A window that starts at the front and covers the table is the whole ranking. */
  lemma ListingWhole(cs: seq<Conversation>, skip: int, limit: int)
    requires skip <= 0 && (limit < 0 || limit >= |cs|)
    ensures Window(Ranked(cs), skip, limit) == Ranked(cs)
  {
    assert |Ranked(cs)| == ActiveCount(cs) == |ActiveOnly(cs)| <= |cs|;
  }

  /** `w` is page (`skip`, `limit`) of the non-system messages of `ms`: it
      has `PageSize` elements, the k-th being the (offset + k)-th non-system
      message, and without a window it is all of them. */
  predicate IsPage(w: seq<Message>, ms: seq<Message>, skip: int, limit: int) {
    var v := Visible(ms);
    && |w| == PageSize(skip, limit, |v|)
    && (forall k :: 0 <= k < |w| ==> w[k] == v[Offset(skip, |v|) + k])
    && (forall k :: 0 <= k < |w| ==> w[k].role != SystemRole && w[k] in ms)
    && (skip <= 0 && limit < 0 ==> w == v)
  }

  /** GET /conversations/{id}/messages (defaults skip = 0, limit = 50): the
      non-system messages in creation order. Inactive conversations are served too. */
  function ListMessages(s: Store, cid: string, skip: int, limit: int): (r: Reply<seq<Message>>)
    ensures r.Err? <==> Find(s.conversations, cid).None?
    ensures r.Err? ==> r.status == NotFound
    ensures r.Ok? ==> IsPage(r.value, s.conversations[Find(s.conversations, cid).value].messages, skip, limit)
  {
    match Find(s.conversations, cid)
    case None => Err(NotFound)
    case Some(i) =>
      var ms := s.conversations[i].messages;
      VisiblePage(ms, skip, limit);
      Ok(Window(Visible(ms), skip, limit))
  }

  lemma VisiblePage(ms: seq<Message>, skip: int, limit: int)
    ensures IsPage(Window(Visible(ms), skip, limit), ms, skip, limit)
  {
    var v := Visible(ms);
    var w := Window(v, skip, limit);
    forall k | 0 <= k < |w|
      ensures w[k].role != SystemRole && w[k] in ms
    {
      assert w[k] == v[Offset(skip, |v|) + k];
    }
  }

  /** The conversation `Clear` opens is found at the end of the table. */
  lemma ClearAppendsNew(s: Store, cid: string, newId: string)
    requires Find(s.conversations, newId).None?
    ensures var rows := Clear(s, cid, newId).store.conversations;
            && Find(rows, newId) == Some(|s.conversations|)
            && IsNew(rows[|s.conversations|], newId)
  {
  }

  /** The conversation `Clear` opens holds only its system message, so its
      message listing is empty. */
  lemma ClearedConversationListsNothing(s: Store, cid: string, newId: string, skip: int, limit: int)
    requires Find(s.conversations, newId).None?
    ensures ListMessages(Clear(s, cid, newId).store, newId, skip, limit) == Ok([])
  {
    var rows := Clear(s, cid, newId).store.conversations;
    ClearAppendsNew(s, cid, newId);
    var ms := rows[|s.conversations|].messages;
    assert ms == [ms[0]];
    assert Visible(ms) == [];
  }

  // ---------------------------------------------------------------- export

  /** One exported message: upper-cased role, colon, content, blank line. The
      role and the content can be read back from the fixed positions. */
  function Line(m: Message): (l: string)
    ensures |l| == |m.role| + |m.content| + 4
    ensures l[..|m.role|] == Upper(m.role)
    ensures l[|m.role|..|m.role| + 2] == ": "
    ensures l[|m.role| + 2..|l| - 2] == m.content
    ensures l[|l| - 2..] == "\n\n"
  {
    var head := Upper(m.role) + ": ";
    var l := head + m.content + "\n\n";
    assert l[..|head|] == head;
    l
  }

  /** The transcript of `ms`, every message rendered in order: at least four
      characters a message, and empty exactly when there is no message. */
  function Render(ms: seq<Message>): (r: string)
    ensures |r| >= 4 * |ms|
    ensures r == "" <==> ms == []
  {
    if ms == [] then "" else Line(ms[0]) + Render(ms[1..])
  }

  lemma {:induction false} RenderAppend(ms: seq<Message>, m: Message)
    ensures Render(ms + [m]) == Render(ms) + Line(m)
  {
    if ms == [] {
      assert Render([m]) == Line(m) + Render([]);
    } else {
      assert (ms + [m])[1..] == ms[1..] + [m];
      RenderAppend(ms[1..], m);
    }
  }

  /** The file body the export writes: one line per non-system message. */
  method Transcript(ms: seq<Message>) returns (text: string)
    ensures text == Render(Visible(ms))
  {
    text := "";
    var k := 0;
    while k < |ms|
      invariant k <= |ms|
      invariant text == Render(Visible(ms[..k]))
    {
      TranscriptStep(ms, k);
      if ms[k].role != SystemRole {
        text := text + Line(ms[k]);
      }
      k := k + 1;
    }
    assert ms[..k] == ms;
  }

  lemma TranscriptStep(ms: seq<Message>, k: nat)
    requires k < |ms|
    ensures Render(Visible(ms[..k + 1]))
              == Render(Visible(ms[..k])) + (if ms[k].role != SystemRole then Line(ms[k]) else "")
  {
    assert ms[..k + 1] == ms[..k] + [ms[k]];
    VisibleAppend(ms[..k], ms[k]);
    if ms[k].role != SystemRole {
      RenderAppend(Visible(ms[..k]), ms[k]);
    } else {
      assert Visible(ms[..k]) + [] == Visible(ms[..k]);
    }
  }

  /** GET /export-conversation/{id}: the transcript of the stored messages,
      system messages left out. Inactive conversations are exported too. */
  method Export(s: Store, cid: string) returns (r: Reply<string>)
    ensures r.Err? <==> Find(s.conversations, cid).None?
    ensures r.Err? ==> r.status == NotFound
    ensures r.Ok? ==> r.value == Render(Visible(s.conversations[Find(s.conversations, cid).value].messages))
  {
    var found := Find(s.conversations, cid);
    if found.None? {
      return Err(NotFound);
    }
    var text := Transcript(s.conversations[found.value].messages);
    return Ok(text);
  }
}

=== FILE: history_view.dfy ===
/** The conversation history panel (ConversationHistory.jsx), as pure state
    transitions: toggling, fetching the list, deleting an entry, and what the
    panel shows. */
module HistoryView {
  import opened Wrappers
  import opened Store
  import opened Endpoints
  import opened StoreInvariant
  import opened BackendProperties
  import Records
  import ChatView

  const LoadError: string := "No se pudieron cargar las conversaciones. Intenta de nuevo más tarde."

  datatype HistoryState = HistoryState(
    conversations: seq<Summary>,
    loading: bool,
    error: Option<string>,
    showHistory: bool)

  /** The panel is hidden and, until the first fetch, loading. */
  const Initial: HistoryState := HistoryState([], true, None, false)

  datatype HistoryRequest = ListRequest | DeleteRequest(conversationId: string)

  datatype HistoryEffect = HistoryEffect(state: HistoryState, request: Option<HistoryRequest>)

  /** What the panel renders, in the order the component tests the state. */
  datatype Panel = Hidden | Spinner | ErrorText(message: string) | NoConversations | Items(items: seq<Summary>)

  function View(st: HistoryState): (p: Panel)
    ensures p == Hidden <==> !st.showHistory
    ensures st.showHistory && st.loading ==> p == Spinner
    ensures st.showHistory && !st.loading && st.error.Some? ==> p == ErrorText(st.error.value)
    ensures p == NoConversations <==>
              st.showHistory && !st.loading && st.error.None? && |st.conversations| == 0
    ensures p.Items? <==> st.showHistory && !st.loading && st.error.None? && |st.conversations| > 0
    ensures p.Items? ==> p.items == st.conversations
  {
    if !st.showHistory then Hidden
    else if st.loading then Spinner
    else if st.error.Some? then ErrorText(st.error.value)
    else if |st.conversations| == 0 then NoConversations
    else Items(st.conversations)
  }

  /** `fetchConversations`: success replaces the list and clears the error,
      failure keeps the list and sets the error; loading ends either way. */
  function Fetch(st: HistoryState, outcome: Outcome<seq<Summary>>): (r: HistoryState)
    ensures !r.loading && r.showHistory == st.showHistory
    ensures outcome.Done? ==> r.conversations == outcome.payload && r.error.None?
    ensures outcome.Failed? ==> r.conversations == st.conversations && r.error == Some(LoadError)
  {
    match outcome
    case Done(items) => st.(conversations := items, error := None, loading := false)
    case Failed => st.(error := Some(LoadError), loading := false)
  }

  /** The toggle button; the effect on `showHistory` fetches only when the
      panel becomes visible. */
  function Toggle(st: HistoryState, outcome: Outcome<seq<Summary>>): (r: HistoryEffect)
    ensures r.state.showHistory == !st.showHistory
    ensures r.request.Some? <==> !st.showHistory
    ensures r.request.Some? ==> r.request.value == ListRequest
    ensures st.showHistory ==> r.state == st.(showHistory := false)
  {
    if st.showHistory then HistoryEffect(st.(showHistory := false), None)
    else HistoryEffect(Fetch(st.(showHistory := true), outcome), Some(ListRequest))
  }

  /** The panel starts hidden, and the first press fetches the list and shows
      its outcome rather than the initial spinner state. */
  lemma FirstPressFetches(outcome: Outcome<seq<Summary>>)
    ensures View(Initial) == Hidden
    ensures var r := Toggle(Initial, outcome);
            && r.request == Some(ListRequest)
            && View(r.state) != Spinner && View(r.state) != Hidden
  {
    OpenedPanelHasSettled(Initial, outcome);
  }

  /** Once opened, the panel never shows the spinner: the fetch has settled. */
  lemma OpenedPanelHasSettled(st: HistoryState, outcome: Outcome<seq<Summary>>)
    requires !st.showHistory
    ensures var p := View(Toggle(st, outcome).state);
            && p != Spinner && p != Hidden
            && (outcome.Failed? ==> p == ErrorText(LoadError))
            && (outcome.Done? && |outcome.payload| > 0 ==> p == Items(outcome.payload))
  {
  }

  /** Presses of the toggle button, each with the outcome its fetch would have;
      yields the final state and how many list requests were sent. */
  function Presses(st: HistoryState, outcomes: seq<Outcome<seq<Summary>>>): (HistoryState, nat)
    decreases |outcomes|
  {
    if outcomes == [] then (st, 0)
    else
      var e := Toggle(st, outcomes[0]);
      var (last, n) := Presses(e.state, outcomes[1..]);
      (last, n + if e.request.Some? then 1 else 0)
  }

  /** Starting hidden, `n` presses fetch the list ceil(n/2) times and leave the
      panel visible exactly when `n` is odd. */
  lemma {:induction false} PressesFetchOnEveryOpening(st: HistoryState, outcomes: seq<Outcome<seq<Summary>>>)
    requires !st.showHistory
    ensures Presses(st, outcomes).1 == (|outcomes| + 1) / 2
    ensures Presses(st, outcomes).0.showHistory <==> |outcomes| % 2 == 1
    decreases |outcomes|
  {
    if |outcomes| >= 2 {
      var mid := Toggle(st, outcomes[0]).state;
      var end := Toggle(mid, outcomes[1]).state;
      assert outcomes[1..][1..] == outcomes[2..];
      PressesFetchOnEveryOpening(end, outcomes[2..]);
    } else if |outcomes| == 1 {
      assert outcomes[1..] == [];
    }
  }

  /** `conversations.filter(conv => conv.conversation_id !== id)`. */
  function Without(cs: seq<Summary>, conversationId: string): (r: seq<Summary>)
    ensures |r| <= |cs|
  {
    if cs == [] then []
    else if cs[0].conversationId != conversationId then [cs[0]] + Without(cs[1..], conversationId)
    else Without(cs[1..], conversationId)
  }

  /** The filter keeps exactly the entries with another id. */
  lemma {:induction false} WithoutMembers(cs: seq<Summary>, conversationId: string)
    ensures forall c :: c in Without(cs, conversationId) <==> c in cs && c.conversationId != conversationId
  {
    if cs != [] {
      WithoutMembers(cs[1..], conversationId);
      assert cs == [cs[0]] + cs[1..];
    }
  }

  /** The filter is stable: it visits the list front to back. */
  lemma {:induction false} WithoutAppend(cs: seq<Summary>, c: Summary, conversationId: string)
    ensures Without(cs + [c], conversationId)
              == Without(cs, conversationId) + (if c.conversationId != conversationId then [c] else [])
  {
    if cs == [] {
      assert [c][1..] == [];
    } else {
      assert (cs + [c])[1..] == cs[1..] + [c];
      WithoutAppend(cs[1..], c, conversationId);
    }
  }

  /** Removing an id that is not listed leaves the list as it was. */
  lemma {:induction false} WithoutAbsent(cs: seq<Summary>, conversationId: string)
    requires forall k :: 0 <= k < |cs| ==> cs[k].conversationId != conversationId
    ensures Without(cs, conversationId) == cs
  {
    if cs != [] {
      WithoutAbsent(cs[1..], conversationId);
      assert [cs[0]] + cs[1..] == cs;
    }
  }

  predicate DistinctIds(cs: seq<Summary>) {
    forall a, b :: 0 <= a < b < |cs| ==> cs[a].conversationId != cs[b].conversationId
  }

  lemma DistinctTail(cs: seq<Summary>)
    requires cs != [] && DistinctIds(cs)
    ensures DistinctIds(cs[1..])
  {
    forall a, b | 0 <= a < b < |cs| - 1
      ensures cs[1..][a].conversationId != cs[1..][b].conversationId
    {
      assert cs[1..][a] == cs[a + 1] && cs[1..][b] == cs[b + 1];
    }
  }

  /** Removing one listed entry of a list with distinct ids leaves the others, in order. */
  lemma {:induction false} WithoutRemovesOne(cs: seq<Summary>, i: nat)
    requires i < |cs| && DistinctIds(cs)
    ensures Without(cs, cs[i].conversationId) == cs[..i] + cs[i + 1..]
  {
    var id := cs[i].conversationId;
    var tail := cs[1..];
    DistinctTail(cs);
    if i == 0 {
      forall k | 0 <= k < |tail|
        ensures tail[k].conversationId != id
      {
        assert tail[k] == cs[k + 1];
      }
      WithoutAbsent(tail, id);
    } else {
      assert cs[0].conversationId != id;
      assert tail[i - 1] == cs[i];
      WithoutRemovesOne(tail, i - 1);
      KeepHead(cs, i);
    }
  }

  lemma KeepHead(cs: seq<Summary>, i: nat)
    requires 0 < i < |cs| && cs[0].conversationId != cs[i].conversationId
    requires Without(cs[1..], cs[i].conversationId) == cs[1..][..i - 1] + cs[1..][i..]
    ensures Without(cs, cs[i].conversationId) == cs[..i] + cs[i + 1..]
  {
    var id, tail := cs[i].conversationId, cs[1..];
    assert Without(cs, id) == [cs[0]] + Without(tail, id);
    assert cs == [cs[0]] + tail;
    ConsSplice(cs[0], tail, i - 1);
  }

  /** Cutting element `j` out of `xs` and then adding `x` in front is cutting
      element `j + 1` out of `[x] + xs`. */
  lemma ConsSplice<T>(x: T, xs: seq<T>, j: nat)
    requires j < |xs|
    ensures [x] + (xs[..j] + xs[j + 1..]) == ([x] + xs)[..j + 1] + ([x] + xs)[j + 2..]
  {
    assert ([x] + xs)[..j + 1] == [x] + xs[..j];
    assert ([x] + xs)[j + 2..] == xs[j + 1..];
  }

  /** `handleDeleteConversation`: needs the user's confirmation; on success the
      entry leaves the list; the loading flag and the error are left alone. */
  function DeleteConversation(st: HistoryState, conversationId: string, confirmed: bool, outcome: Outcome<()>): (r: HistoryEffect)
    ensures !confirmed ==> r == HistoryEffect(st, None)
    ensures confirmed ==> r.request == Some(DeleteRequest(conversationId))
    ensures confirmed && outcome.Failed? ==> r.state == st
    ensures confirmed && outcome.Done? ==>
              r.state == st.(conversations := Without(st.conversations, conversationId))
  {
    if !confirmed then HistoryEffect(st, None)
    else match outcome
      case Done(_) =>
        HistoryEffect(st.(conversations := Without(st.conversations, conversationId)), Some(DeleteRequest(conversationId)))
      case Failed => HistoryEffect(st, Some(DeleteRequest(conversationId)))
  }

  /** The entry whose id is the window's current conversation is drawn highlighted. */
  predicate Highlighted(c: Summary, current: Option<string>) {
    current == Some(c.conversationId)
  }

  /** With distinct ids, at most one entry is highlighted. */
  lemma OneHighlighted(cs: seq<Summary>, current: Option<string>, a: nat, b: nat)
    requires DistinctIds(cs)
    requires a < |cs| && b < |cs| && Highlighted(cs[a], current) && Highlighted(cs[b], current)
    ensures a == b
  {
  }

  /** The panel shows a listing the server produced from a consistent store;
      deleting its `i`-th entry removes that entry alone, and at most one
      entry is highlighted. */
  lemma DeleteAfterListing(s: Store, st: HistoryState, i: nat, current: Option<string>)
    requires Inv(s)
    requires i < |ListConversations(s, 0, 10)|
    ensures var shown := Fetch(st, Done(ListConversations(s, 0, 10)));
            var cid := shown.conversations[i].conversationId;
            && DeleteConversation(shown, cid, true, Done(())).state.conversations
                 == shown.conversations[..i] + shown.conversations[i + 1..]
            && forall a, b ::
                 (0 <= a < |shown.conversations| && 0 <= b < |shown.conversations|
                  && Highlighted(shown.conversations[a], current) && Highlighted(shown.conversations[b], current))
                 ==> a == b
  {
    var listing := ListConversations(s, 0, 10);
    ListingHasDistinctIds(s, 0, 10);
    WithoutRemovesOne(listing, i);
    forall a, b | 0 <= a < |listing| && 0 <= b < |listing|
        && Highlighted(listing[a], current) && Highlighted(listing[b], current)
      ensures a == b
    {
      OneHighlighted(listing, current, a, b);
    }
  }

  /** Clicking entry `k` loads that conversation into the chat window; once
      loaded, that entry and no other is highlighted. */
  lemma SelectHighlightsEntry(cs: seq<Summary>, k: nat, chat: ChatView.ChatState, ms: seq<Records.Message>)
    requires k < |cs| && DistinctIds(cs)
    ensures var current := ChatView.LoadConversation(chat, cs[k].conversationId, Done(ms)).state.conversationId;
            forall j :: 0 <= j < |cs| ==> (Highlighted(cs[j], current) <==> j == k)
  {
    var current := ChatView.LoadConversation(chat, cs[k].conversationId, Done(ms)).state.conversationId;
    forall j | 0 <= j < |cs| && Highlighted(cs[j], current)
      ensures j == k
    {
      OneHighlighted(cs, current, j, k);
    }
  }
}

=== FILE: records.dfy ===
/** The rows of the chatbot's database (conversations, messages, feedback)
    and the role/content pairs kept in the in-memory cache. */
module Records {

  const DefaultTitle: string := "Nueva conversación"
  const DefaultSystemMessage: string := "You are a useful AI assistant."
  const SystemRole: string := "system"
  const AssistantRole: string := "assistant"

  /** A row of the messages table. Its position inside its conversation's
      message list stands for its `created_at` order. */
  datatype Message = Message(id: nat, role: string, content: string)

  /** A row of the conversations table, with the messages whose foreign key
      points at it. `key` is the integer primary key, `updatedAt` a logical
      `updated_at` timestamp. */
  datatype Conversation = Conversation(
    key: nat,
    conversationId: string,
    title: string,
    updatedAt: nat,
    active: bool,
    systemMessage: string,
    messages: seq<Message>)

  /** A row of the feedback table: one rating of one message. */
  datatype FeedbackRow = FeedbackRow(messageId: nat, isPositive: bool)

  /** An entry of the in-memory cache: a message without its id. */
  datatype Turn = Turn(role: string, content: string)

  function TurnOf(m: Message): Turn {
    Turn(m.role, m.content)
  }

  /** The cache's view of a stored message list. */
  function Turns(ms: seq<Message>): (ts: seq<Turn>)
    ensures |ts| == |ms|
  {
    seq(|ms|, i requires 0 <= i < |ms| => TurnOf(ms[i]))
  }

  /** A conversation row as inserted: every column at its default, plus the
      one system message that both creation paths add. */
  function Fresh(key: nat, conversationId: string, now: nat, messageId: nat): (c: Conversation)
    ensures IsNew(c, conversationId)
    ensures c.key == key && c.updatedAt == now && c.messages[0].id == messageId
  {
    Conversation(key, conversationId, DefaultTitle, now, true, DefaultSystemMessage,
                 [Message(messageId, SystemRole, DefaultSystemMessage)])
  }

  /** `c` is a conversation `cid` exactly as the database creates it. */
  predicate IsNew(c: Conversation, cid: string) {
    && c.conversationId == cid
    && c.title == DefaultTitle
    && c.active
    && c.systemMessage == DefaultSystemMessage
    && |c.messages| == 1
    && c.messages[0].role == SystemRole
    && c.messages[0].content == DefaultSystemMessage
  }
}

=== FILE: store.dfy ===
/** The backend's state: the database tables and the `active_conversations`
    cache, with the two helpers every endpoint builds on. */
module Store {
  import opened Wrappers
  import opened Records

  /** Conversations in primary-key order, the feedback table, the cache, the
      next message primary key and the logical clock behind `updated_at`. */
  datatype Store = Store(
    conversations: seq<Conversation>,
    feedback: seq<FeedbackRow>,
    cache: map<string, seq<Turn>>,
    nextMessageId: nat,
    clock: nat)

  /** A fresh database: no rows, empty cache; SQLite starts keys at 1. */
  const Empty: Store := Store([], [], map[], 1, 1)

  /** `query(Conversation).filter(conversation_id == cid).first()`. */
  function Find(rows: seq<Conversation>, cid: string): (r: Option<nat>)
    ensures r.Some? ==> r.value < |rows| && rows[r.value].conversationId == cid
    ensures r.Some? ==> forall j :: 0 <= j < r.value ==> rows[j].conversationId != cid
    ensures r.None? <==> forall j :: 0 <= j < |rows| ==> rows[j].conversationId != cid
  {
    if rows == [] then None
    else if rows[0].conversationId == cid then Some(0)
    else match Find(rows[1..], cid)
      case None => None
      case Some(k) => Some(k + 1)
  }

  /** Find only looks at the conversation ids. */
  lemma FindSameIds(rows: seq<Conversation>, rows': seq<Conversation>, cid: string)
    requires |rows'| == |rows|
    requires forall j :: 0 <= j < |rows| ==> rows'[j].conversationId == rows[j].conversationId
    ensures Find(rows', cid) == Find(rows, cid)
  {
    var a, b := Find(rows, cid), Find(rows', cid);
    if a.Some? && b.Some? {
      assert !(a.value < b.value) && !(b.value < a.value);
    }
  }

  /** Appending a row does not move an earlier match, and a new id is found at the end. */
  lemma FindAppend(rows: seq<Conversation>, c: Conversation, cid: string)
    ensures Find(rows, cid).Some? ==> Find(rows + [c], cid) == Find(rows, cid)
    ensures Find(rows, cid).None? && c.conversationId == cid ==> Find(rows + [c], cid) == Some(|rows|)
    ensures Find(rows, cid).None? && c.conversationId != cid ==> Find(rows + [c], cid).None?
  {
    assert forall j :: 0 <= j < |rows| ==> (rows + [c])[j] == rows[j];
    assert (rows + [c])[|rows|] == c;
  }

  /** The columns of a conversation row; `updated_at` changes only when one of them does. */
  predicate SameColumns(a: Conversation, b: Conversation) {
    a.title == b.title && a.active == b.active && a.systemMessage == b.systemMessage
  }

  /** Commits `c` as conversation row `i`. SQLAlchemy issues an UPDATE, and so
      fires `onupdate`, only when a column value actually changed. */
  function Commit(s: Store, i: nat, c: Conversation): (r: Store)
    requires i < |s.conversations|
    ensures |r.conversations| == |s.conversations|
    ensures forall j :: 0 <= j < |s.conversations| && j != i ==> r.conversations[j] == s.conversations[j]
    ensures r.conversations[i] == c.(updatedAt := r.conversations[i].updatedAt)
    ensures r.conversations[i].updatedAt
              == if SameColumns(c, s.conversations[i]) then c.updatedAt else s.clock
    ensures r.feedback == s.feedback && r.cache == s.cache && r.nextMessageId == s.nextMessageId
    ensures r.clock >= s.clock
  {
    if SameColumns(c, s.conversations[i]) then
      s.(conversations := s.conversations[i := c])
    else
      s.(conversations := s.conversations[i := c.(updatedAt := s.clock)], clock := s.clock + 1)
  }

  /** Inserts conversation `cid` with its default columns and its system message. */
  function Insert(s: Store, cid: string): (r: Store)
    ensures |r.conversations| == |s.conversations| + 1 && IsNew(r.conversations[|s.conversations|], cid)
    ensures r.conversations[..|s.conversations|] == s.conversations
    ensures r.conversations[|s.conversations|].messages[0].id == s.nextMessageId
    ensures r.nextMessageId == s.nextMessageId + 1
    ensures r.feedback == s.feedback && r.cache == s.cache
  {
    var c := Fresh(|s.conversations| + 1, cid, s.clock, s.nextMessageId);
    s.(conversations := s.conversations + [c], nextMessageId := s.nextMessageId + 1, clock := s.clock + 1)
  }

  /** `get_or_create_conversation_in_db`: the stored conversation `cid`, created
      with its defaults when missing. Returns the new store and the row's index. */
  function GetOrCreate(s: Store, cid: string): (r: (Store, nat))
    ensures r.1 < |r.0.conversations| && Find(r.0.conversations, cid) == Some(r.1)
    ensures Find(s.conversations, cid).Some? ==> r == (s, Find(s.conversations, cid).value)
    ensures Find(s.conversations, cid).None? ==>
              && r.1 == |s.conversations| == |r.0.conversations| - 1
              && r.0.conversations[..|s.conversations|] == s.conversations
              && IsNew(r.0.conversations[r.1], cid)
              && r.0.feedback == s.feedback && r.0.cache == s.cache
  {
    match Find(s.conversations, cid)
    case Some(i) => (s, i)
    case None =>
      var s' := Insert(s, cid);
      assert s'.conversations == s.conversations + [s'.conversations[|s.conversations|]];
      FindAppend(s.conversations, s'.conversations[|s.conversations|], cid);
      (s', |s.conversations|)
  }

  /** Calling `get_or_create` twice is the same as calling it once. */
  lemma GetOrCreateIdempotent(s: Store, cid: string)
    ensures GetOrCreate(GetOrCreate(s, cid).0, cid) == GetOrCreate(s, cid)
  {
  }

  /** `get_conversation_messages`: the cached list when there is one; otherwise
      the stored messages (conversation created if missing), which are then cached. */
  function ConversationTurns(s: Store, cid: string): (r: (Store, seq<Turn>))
    ensures cid in r.0.cache && r.0.cache[cid] == r.1
    ensures cid in s.cache ==> r == (s, s.cache[cid])
    ensures cid !in s.cache ==>
              var (s1, i) := GetOrCreate(s, cid);
              && r.0 == s1.(cache := s1.cache[cid := r.1])
              && r.1 == Turns(s1.conversations[i].messages)
  {
    if cid in s.cache then (s, s.cache[cid])
    else
      var (s1, i) := GetOrCreate(s, cid);
      var ts := Turns(s1.conversations[i].messages);
      (s1.(cache := s1.cache[cid := ts]), ts)
  }
}

=== FILE: store_invariant.dfy ===
/** What every reachable backend state satisfies, and in particular that the
    in-memory cache really is a copy of the database: each cached list equals
    the stored role/content list of an active conversation. */
module StoreInvariant {
  import opened Wrappers
  import opened Records
  import opened Store
  import opened Endpoints

  /** The unique constraint on `conversation_id`. */
  predicate UniqueIds(rows: seq<Conversation>) {
    forall a, b :: 0 <= a < b < |rows| ==> rows[a].conversationId != rows[b].conversationId
  }

  predicate StartsWithSystem(ms: seq<Message>) {
    |ms| > 0 && ms[0].role == SystemRole
  }

  /** The cached list of `k` is the stored list of active conversation `k`. */
  predicate Mirrors(s: Store, k: string)
    requires k in s.cache
  {
    match Find(s.conversations, k)
    case None => false
    case Some(i) => s.conversations[i].active && s.cache[k] == Turns(s.conversations[i].messages)
  }

  ghost predicate AtMostOneRating(fb: seq<FeedbackRow>) {
    forall m :: Count(fb, m) <= 1
  }

  ghost predicate Inv(s: Store) {
    && UniqueIds(s.conversations)
    && (forall i :: 0 <= i < |s.conversations| ==> StartsWithSystem(s.conversations[i].messages))
    && (forall k :: k in s.cache ==> Mirrors(s, k))
    && AtMostOneRating(s.feedback)
  }

  lemma EmptyInv()
    ensures Inv(Empty)
  {
  }

  lemma FindUnique(rows: seq<Conversation>, i: nat)
    requires UniqueIds(rows) && i < |rows|
    ensures Find(rows, rows[i].conversationId) == Some(i)
  {
  }

  /** One conversation row changes, keeping its id and its leading system
      message; the cache changes only at that id, and consistently. */
  lemma ChangeRowKeepsInv(s: Store, s': Store, i: nat)
    requires Inv(s)
    requires i < |s.conversations| == |s'.conversations|
    requires forall j :: 0 <= j < |s.conversations| && j != i ==> s'.conversations[j] == s.conversations[j]
    requires s'.conversations[i].conversationId == s.conversations[i].conversationId
    requires StartsWithSystem(s'.conversations[i].messages)
    requires AtMostOneRating(s'.feedback)
    requires var k := s.conversations[i].conversationId;
             && (forall x :: x != k ==> (x in s'.cache <==> x in s.cache))
             && (forall x :: x != k && x in s.cache ==> s'.cache[x] == s.cache[x])
             && (k in s'.cache ==> s'.conversations[i].active && s'.cache[k] == Turns(s'.conversations[i].messages))
    ensures Inv(s')
  {
    var k := s.conversations[i].conversationId;
    assert forall j :: 0 <= j < |s.conversations| ==>
             s'.conversations[j].conversationId == s.conversations[j].conversationId;
    forall a, b | 0 <= a < b < |s'.conversations|
      ensures s'.conversations[a].conversationId != s'.conversations[b].conversationId
    {
      assert s.conversations[a].conversationId != s.conversations[b].conversationId;
    }
    forall j | 0 <= j < |s'.conversations|
      ensures StartsWithSystem(s'.conversations[j].messages)
    {
      if j != i {
        assert StartsWithSystem(s.conversations[j].messages);
      }
    }
    forall x | x in s'.cache
      ensures Mirrors(s', x)
    {
      FindSameIds(s.conversations, s'.conversations, x);
      if x == k {
        FindUnique(s.conversations, i);
      } else {
        OtherRowKeepsMirror(s, s', i, x);
      }
    }
  }

  /** A cache entry whose row did not change still mirrors it. */
  lemma OtherRowKeepsMirror(s: Store, s': Store, i: nat, x: string)
    requires i < |s.conversations| == |s'.conversations|
    requires forall j :: 0 <= j < |s.conversations| && j != i ==> s'.conversations[j] == s.conversations[j]
    requires x != s.conversations[i].conversationId
    requires Find(s'.conversations, x) == Find(s.conversations, x)
    requires x in s.cache && Mirrors(s, x)
    requires x in s'.cache && s'.cache[x] == s.cache[x]
    ensures Mirrors(s', x)
  {
    var j := Find(s.conversations, x).value;
    assert j != i;
    assert s'.conversations[j] == s.conversations[j];
  }

  /** Dropping a cache entry keeps the invariant. */
  lemma EvictKeepsInv(s: Store, k: string)
    requires Inv(s)
    ensures Inv(s.(cache := s.cache - {k}))
  {
    var s' := s.(cache := s.cache - {k});
    forall x | x in s'.cache
      ensures Mirrors(s', x)
    {
      assert Mirrors(s, x);
    }
  }

  /** Inserting a conversation whose id is new keeps the invariant. */
  lemma InsertKeepsInv(s: Store, cid: string)
    requires Inv(s) && Find(s.conversations, cid).None?
    ensures Inv(Insert(s, cid))
  {
    var s' := Insert(s, cid);
    var c := s'.conversations[|s.conversations|];
    assert s'.conversations == s.conversations + [c];
    forall x | x in s'.cache
      ensures Mirrors(s', x)
    {
      assert Mirrors(s, x);
      FindAppend(s.conversations, c, x);
    }
  }

  lemma GetOrCreateKeepsInv(s: Store, cid: string)
    requires Inv(s)
    ensures Inv(GetOrCreate(s, cid).0)
  {
    if Find(s.conversations, cid).None? {
      InsertKeepsInv(s, cid);
    }
  }

  lemma TurnsAppend(ms: seq<Message>, extra: seq<Message>)
    ensures Turns(ms + extra) == Turns(ms) + Turns(extra)
  {
  }

  /** The stored list an exchange leaves, seen as the cache sees it. */
  lemma ExchangeTurns(s: Store, i: nat, input: ChatInput, history: seq<Turn>, llm: LlmOutcome)
    requires i < |s.conversations|
    ensures var before := s.conversations[i].messages;
            var after := Exchange(s, i, input, history, llm).store.conversations[i].messages;
            Turns(after) == Turns(before) + [Turn(input.role, input.message)]
                            + (if llm.Answer? then [Turn(AssistantRole, llm.text)] else [])
  {
    var before := s.conversations[i].messages;
    var after := Exchange(s, i, input, history, llm).store.conversations[i].messages;
    assert after == before + after[|before|..];
    TurnsAppend(before, after[|before|..]);
  }

  lemma ExchangeKeepsInv(s: Store, i: nat, input: ChatInput, llm: LlmOutcome)
    requires Inv(s)
    requires i < |s.conversations| && s.conversations[i].conversationId == input.conversationId
    requires s.conversations[i].active
    ensures Inv(Exchange(s, i, input, Turns(s.conversations[i].messages), llm).store)
  {
    var r := Exchange(s, i, input, Turns(s.conversations[i].messages), llm);
    ExchangeTurns(s, i, input, Turns(s.conversations[i].messages), llm);
    ChangeRowKeepsInv(s, r.store, i);
  }

  lemma ChatKeepsInv(s: Store, input: ChatInput, llm: LlmOutcome)
    requires Inv(s)
    ensures Inv(Chat(s, input, llm).store)
  {
    var cid := input.conversationId;
    var (s1, i) := GetOrCreate(s, cid);
    GetOrCreateKeepsInv(s, cid);
    var row := s1.conversations[i];
    if row.active {
      FindUnique(s1.conversations, i);
      if cid in s1.cache {
        assert Mirrors(s1, cid);
      }
      ExchangeKeepsInv(s1, i, input, llm);
    }
  }

  lemma DeactivateKeepsInv(s: Store, cid: string)
    requires Inv(s)
    ensures Inv(Deactivate(s, cid))
  {
    EvictKeepsInv(s, cid);
    if Find(s.conversations, cid).Some? {
      var i := Find(s.conversations, cid).value;
      FindUnique(s.conversations, i);
      ChangeRowKeepsInv(s, Deactivate(s, cid), i);
    }
  }

  lemma ClearKeepsInv(s: Store, cid: string, newId: string)
    requires Inv(s)
    ensures Inv(Clear(s, cid, newId).store)
  {
    var s2 := Deactivate(s, cid);
    DeactivateKeepsInv(s, cid);
    FindSameIds(s.conversations, s2.conversations, newId);
    if Find(s2.conversations, newId).None? {
      OpenKeepsInv(s2, newId);
    }
  }

  /** Adding the fresh conversation `newId` with its initial cache entry keeps
      the invariant. */
  lemma OpenKeepsInv(s: Store, newId: string)
    requires Inv(s)
    requires Find(s.conversations, newId).None?
    ensures var s1 := Insert(s, newId);
            Inv(s1.(cache := s1.cache[newId := InitialTurns]))
  {
    InsertKeepsInv(s, newId);
    var s1 := Insert(s, newId);
    var s2 := s1.(cache := s1.cache[newId := InitialTurns]);
    var n := |s.conversations|;
    assert s1.conversations == s.conversations + [s1.conversations[n]];
    FindAppend(s.conversations, s1.conversations[n], newId);
    assert Mirrors(s2, newId);
    forall x | x in s2.cache
      ensures Mirrors(s2, x)
    {
      if x != newId {
        assert Mirrors(s1, x);
      }
    }
  }

  lemma FeedbackKeepsInv(s: Store, mid: int, positive: bool)
    requires Inv(s)
    ensures Inv(SubmitFeedback(s, mid, positive).store)
  {
    var r := SubmitFeedback(s, mid, positive);
    if r.reply.Ok? {
      forall m
        ensures Count(r.store.feedback, m) <= 1
      {
        assert Count(s.feedback, m) <= 1;
      }
      assert forall x :: x in r.store.cache ==> Mirrors(s, x);
    }
  }

  lemma UpdateSystemMessageKeepsInv(s: Store, cid: string, text: string)
    requires Inv(s)
    ensures Inv(UpdateSystemMessage(s, cid, text).store)
  {
    var (s1, i) := GetOrCreate(s, cid);
    GetOrCreateKeepsInv(s, cid);
    FindUnique(s1.conversations, i);
    var row := s1.conversations[i];
    var r := SetSystemMessage(s1, i, cid, text);
    assert FirstSystem(row.messages) == Some(0);
    var ms := r.conversations[i].messages;
    assert ms == row.messages[0 := row.messages[0].(content := text)];
    if cid in s1.cache {
      assert Mirrors(s1, cid);
      assert Turns(ms) == WithSystemTurn(s1.cache[cid], text);
    }
    ChangeRowKeepsInv(s1, r, i);
  }

  lemma DeleteKeepsInv(s: Store, cid: string)
    requires Inv(s)
    ensures Inv(Delete(s, cid).store)
  {
    DeactivateKeepsInv(s, cid);
  }

  /** The requests that change the backend's state. */
  datatype Request =
    | PostChat(input: ChatInput, llm: LlmOutcome)
    | PostClear(conversationId: string, newId: string)
    | PostFeedback(messageId: int, isPositive: bool)
    | PostSystemMessage(conversationId: string, text: string)
    | DeleteConversation(conversationId: string)

  function Apply(s: Store, req: Request): Store {
    match req
    case PostChat(input, llm) => Chat(s, input, llm).store
    case PostClear(cid, newId) => Clear(s, cid, newId).store
    case PostFeedback(mid, positive) => SubmitFeedback(s, mid, positive).store
    case PostSystemMessage(cid, text) => UpdateSystemMessage(s, cid, text).store
    case DeleteConversation(cid) => Delete(s, cid).store
  }

  /** The state after serving `reqs` in order, one at a time. */
  function Run(s: Store, reqs: seq<Request>): Store
    decreases |reqs|
  {
    if reqs == [] then s else Run(Apply(s, reqs[0]), reqs[1..])
  }

  lemma ApplyKeepsInv(s: Store, req: Request)
    requires Inv(s)
    ensures Inv(Apply(s, req))
  {
    match req
    case PostChat(input, llm) => ChatKeepsInv(s, input, llm);
    case PostClear(cid, newId) => ClearKeepsInv(s, cid, newId);
    case PostFeedback(mid, positive) => FeedbackKeepsInv(s, mid, positive);
    case PostSystemMessage(cid, text) => UpdateSystemMessageKeepsInv(s, cid, text);
    case DeleteConversation(cid) => DeleteKeepsInv(s, cid);
  }

  lemma {:induction false} RunKeepsInv(s: Store, reqs: seq<Request>)
    requires Inv(s)
    ensures Inv(Run(s, reqs))
    decreases |reqs|
  {
    if reqs != [] {
      ApplyKeepsInv(s, reqs[0]);
      RunKeepsInv(Apply(s, reqs[0]), reqs[1..]);
    }
  }

  /** Whatever requests were served, every cached list equals the stored
      role/content list of its conversation, which is active. */
  lemma CacheMirrorsDatabase(reqs: seq<Request>, k: string)
    ensures var s := Run(Empty, reqs);
            k in s.cache ==>
              && Find(s.conversations, k).Some?
              && s.conversations[Find(s.conversations, k).value].active
              && s.cache[k] == Turns(s.conversations[Find(s.conversations, k).value].messages)
  {
    EmptyInv();
    RunKeepsInv(Empty, reqs);
  }
}

=== FILE: text.dfy ===
/** The string functions the chatbot depends on, written out exactly:
    Python's `str.split()` with no argument and `" ".join`, JavaScript's
    `String.prototype.trim`, and upper-casing of a role name. */
module Text {

  /** Python's `str.isspace()` for one character: the separators of `str.split()`. */
  predicate IsPySpace(c: char) {
    || ('\t' <= c <= '\r')
    || ('\U{1C}' <= c <= ' ')
    || c == '\U{85}' || c == '\U{A0}' || c == '\U{1680}'
    || ('\U{2000}' <= c <= '\U{200A}')
    || c == '\U{2028}' || c == '\U{2029}' || c == '\U{202F}' || c == '\U{205F}' || c == '\U{3000}'
  }

  /** ECMAScript WhiteSpace and LineTerminator: what `trim()` removes. Unlike
      Python it omits U+001C..U+001F and U+0085, and it includes U+FEFF. */
  predicate IsJsSpace(c: char) {
    || ('\t' <= c <= '\r')
    || c == ' ' || c == '\U{A0}' || c == '\U{1680}'
    || ('\U{2000}' <= c <= '\U{200A}')
    || c == '\U{2028}' || c == '\U{2029}' || c == '\U{202F}' || c == '\U{205F}' || c == '\U{3000}'
    || c == '\U{FEFF}'
  }

  /** A word as `str.split()` produces it: non-empty, without separators. */
  predicate IsWord(w: string) {
    |w| > 0 && forall i :: 0 <= i < |w| ==> !IsPySpace(w[i])
  }

  /** Length of the longest separator-free prefix of `s`. */
  function WordEnd(s: string): (n: nat)
    ensures n <= |s|
    ensures forall i :: 0 <= i < n ==> !IsPySpace(s[i])
    ensures n < |s| ==> IsPySpace(s[n])
  {
    if s == [] || IsPySpace(s[0]) then 0 else 1 + WordEnd(s[1..])
  }

  /** Python's `s.split()`: the maximal separator-free runs of `s`, in order. */
  function Split(s: string): (ws: seq<string>)
    ensures forall k :: 0 <= k < |ws| ==> IsWord(ws[k])
    decreases |s|
  {
    if s == [] then []
    else if IsPySpace(s[0]) then Split(s[1..])
    else
      var n := WordEnd(s);
      [s[..n]] + Split(s[n..])
  }

  /** Python's `" ".join(ws)`. */
  function JoinSpaced(ws: seq<string>): string {
    if ws == [] then ""
    else if |ws| == 1 then ws[0]
    else ws[0] + " " + JoinSpaced(ws[1..])
  }

  lemma {:induction false} WordEndOfWord(w: string, rest: string)
    requires forall i :: 0 <= i < |w| ==> !IsPySpace(w[i])
    requires rest == [] || IsPySpace(rest[0])
    ensures WordEnd(w + rest) == |w|
    decreases |w|
  {
    if w != [] {
      assert (w + rest)[1..] == w[1..] + rest;
      WordEndOfWord(w[1..], rest);
    }
  }

  /** A word followed by a separator (or by nothing) is split off whole. */
  lemma SplitAfterWord(w: string, rest: string)
    requires IsWord(w)
    requires rest == [] || IsPySpace(rest[0])
    ensures Split(w + rest) == [w] + Split(rest)
  {
    WordEndOfWord(w, rest);
    assert (w + rest)[..|w|] == w;
    assert (w + rest)[|w|..] == rest;
  }

  /** `split()` undoes `" ".join` on words: the pair is a round trip. */
  lemma {:induction false} SplitJoin(ws: seq<string>)
    requires forall k :: 0 <= k < |ws| ==> IsWord(ws[k])
    ensures Split(JoinSpaced(ws)) == ws
  {
    if ws == [] {
    } else if |ws| == 1 {
      SplitAfterWord(ws[0], "");
      assert ws[0] + "" == ws[0];
    } else {
      var tail := JoinSpaced(ws[1..]);
      assert JoinSpaced(ws) == ws[0] + (" " + tail);
      SplitAfterWord(ws[0], " " + tail);
      assert (" " + tail)[1..] == tail;
      SplitJoin(ws[1..]);
      assert ws == [ws[0]] + ws[1..];
    }
  }

  /** White space collapsed one character at a time: separators are dropped,
      and a single space goes before every word but the first. `started` says
      a word has been written, `gap` that a separator followed it. */
  function Collapse(s: string, started: bool, gap: bool): string
    decreases |s|
  {
    if s == [] then ""
    else if IsPySpace(s[0]) then Collapse(s[1..], started, started)
    else if gap then " " + ([s[0]] + Collapse(s[1..], true, false))
    else [s[0]] + Collapse(s[1..], true, false)
  }

  /** `s` with leading and trailing white space removed and every inner run of
      white space replaced by one space. */
  function Normalize(s: string): string {
    Collapse(s, false, false)
  }

  /** A word after which no separator is pending is copied through. */
  lemma {:induction false} CollapseWord(w: string, rest: string, started: bool)
    requires IsWord(w)
    ensures Collapse(w + rest, started, false) == w + Collapse(rest, true, false)
    decreases |w|
  {
    var x := Collapse(rest, true, false);
    var tail := w[1..] + rest;
    assert w + rest == [w[0]] + tail;
    CollapseHead(w[0], tail, started, false);
    if |w| > 1 {
      WordTail(w);
      CollapseWord(w[1..], rest, true);
      assert [w[0]] + (w[1..] + x) == w + x;
    } else {
      assert tail == rest;
      assert [w[0]] + x == w + x;
    }
  }

  /** A word after a pending separator is copied through behind one space. */
  lemma CollapseGapWord(w: string, rest: string, started: bool)
    requires IsWord(w)
    ensures Collapse(w + rest, started, true) == " " + (w + Collapse(rest, true, false))
  {
    var tail := w[1..] + rest;
    assert w + rest == [w[0]] + tail;
    CollapseHead(w[0], tail, started, true);
    CollapseHead(w[0], tail, true, false);
    CollapseWord(w, rest, true);
  }

  /** `Collapse` on a string that starts with a word character. */
  lemma CollapseHead(c: char, t: string, started: bool, gap: bool)
    requires !IsPySpace(c)
    ensures Collapse([c] + t, started, gap)
              == if gap then " " + ([c] + Collapse(t, true, false)) else [c] + Collapse(t, true, false)
  {
    assert ([c] + t)[0] == c;
    assert ([c] + t)[1..] == t;
  }

  lemma WordTail(w: string)
    requires IsWord(w) && |w| > 1
    ensures IsWord(w[1..])
  {
    forall i | 0 <= i < |w| - 1
      ensures !IsPySpace(w[1..][i])
    {
      assert w[1..][i] == w[i + 1];
    }
  }

  lemma JoinCons(w: string, ws: seq<string>)
    ensures JoinSpaced([w] + ws) == w + (if ws == [] then "" else " " + JoinSpaced(ws))
  {
    assert ([w] + ws)[1..] == ws;
  }

  /** The word case of `CollapseSplit`, given its claim for what follows the word. */
  lemma CollapseWordStep(w: string, rest: string, tail: seq<string>)
    requires IsWord(w)
    requires Collapse(rest, true, false) == if tail == [] then "" else " " + JoinSpaced(tail)
    ensures Collapse(w + rest, false, false) == JoinSpaced([w] + tail)
    ensures Collapse(w + rest, true, true) == " " + JoinSpaced([w] + tail)
  {
    JoinCons(w, tail);
    CollapseWord(w, rest, false);
    CollapseGapWord(w, rest, true);
  }

  lemma {:induction false} CollapseSplit(s: string)
    ensures Collapse(s, false, false) == JoinSpaced(Split(s))
    ensures Collapse(s, true, true) == if Split(s) == [] then "" else " " + JoinSpaced(Split(s))
    ensures s == [] || IsPySpace(s[0]) ==>
              Collapse(s, true, false) == if Split(s) == [] then "" else " " + JoinSpaced(Split(s))
    decreases |s|
  {
    if s != [] {
      if IsPySpace(s[0]) {
        CollapseSplit(s[1..]);
      } else {
        var n := WordEnd(s);
        var w, rest := s[..n], s[n..];
        assert s == w + rest;
        assert Split(s) == [w] + Split(rest);
        CollapseSplit(rest);
        CollapseWordStep(w, rest, Split(rest));
      }
    }
  }

  /** `" ".join(s.split())` is `s` with its white space normalised, so the
      words `split()` yields are exactly the white-space-free runs of `s`. */
  lemma SplitNormalizes(s: string)
    ensures JoinSpaced(Split(s)) == Normalize(s)
  {
    CollapseSplit(s);
  }

  /** JavaScript's `trimStart()`: the longest suffix of `s` that does not
      start with white space. */
  function TrimStart(s: string): (t: string)
    ensures |t| <= |s| && t == s[|s| - |t|..]
    ensures forall i :: 0 <= i < |s| - |t| ==> IsJsSpace(s[i])
    ensures t == [] <==> forall i :: 0 <= i < |s| ==> IsJsSpace(s[i])
    ensures t != [] ==> !IsJsSpace(t[0])
  {
    if s != [] && IsJsSpace(s[0]) then TrimStart(s[1..]) else s
  }

  /** JavaScript's `trimEnd()`: the longest prefix of `s` that does not end
      with white space. */
  function TrimEnd(s: string): (t: string)
    ensures |t| <= |s| && t == s[..|t|]
    ensures forall i :: |t| <= i < |s| ==> IsJsSpace(s[i])
    ensures t == [] <==> forall i :: 0 <= i < |s| ==> IsJsSpace(s[i])
    ensures t != [] ==> !IsJsSpace(t[|t| - 1])
  {
    if s != [] && IsJsSpace(s[|s| - 1]) then TrimEnd(s[..|s| - 1]) else s
  }

  /** `t` is `s[lo..]` cut to length `|t|`, and only white space was cut. */
  predicate TrimmedAt(s: string, t: string, lo: nat) {
    && lo + |t| <= |s| && s[lo..lo + |t|] == t
    && (forall i :: 0 <= i < lo ==> IsJsSpace(s[i]))
    && (forall i :: lo + |t| <= i < |s| ==> IsJsSpace(s[i]))
  }

  /** JavaScript's `trim()`: white space cut from both ends, so the result
      neither starts nor ends with white space. */
  function Trim(s: string): (t: string)
    ensures |t| <= |s|
    ensures t != [] ==> !IsJsSpace(t[0]) && !IsJsSpace(t[|t| - 1])
  {
    TrimEnd(TrimStart(s))
  }

  /** What `trim()` keeps is one infix of `s`, and only white space is cut
      before and after it. */
  lemma TrimIsInfix(s: string)
    ensures exists lo :: TrimmedAt(s, Trim(s), lo)
  {
    var u := TrimStart(s);
    var t := TrimEnd(u);
    var lo := |s| - |u|;
    CutBothEnds(s, u, t, lo);
    assert TrimmedAt(s, Trim(s), lo);
  }

  /** Cutting white space from the front of `s` down to `u`, and then from the
      back of `u` down to `t`, leaves `t` at offset `lo` of `s`. */
  lemma CutBothEnds(s: string, u: string, t: string, lo: nat)
    requires lo + |u| == |s| && u == s[lo..]
    requires |t| <= |u| && t == u[..|t|]
    requires forall i :: 0 <= i < lo ==> IsJsSpace(s[i])
    requires forall i :: |t| <= i < |u| ==> IsJsSpace(u[i])
    ensures TrimmedAt(s, t, lo)
  {
    assert s[lo..lo + |t|] == t;
    forall i | lo + |t| <= i < |s|
      ensures IsJsSpace(s[i])
    {
      assert s[i] == u[i - lo];
    }
  }

  /** `s.trim() === ''` holds exactly when every character of `s` is white space. */
  lemma TrimEmptyIffBlank(s: string)
    ensures Trim(s) == "" <==> forall i :: 0 <= i < |s| ==> IsJsSpace(s[i])
  {
    var t := TrimStart(s);
    if t != [] {
      assert !IsJsSpace(t[0]);
    }
  }

  /** Python's `str.upper()` on ASCII letters. */
  function UpperChar(c: char): char {
    if 'a' <= c <= 'z' then (c as int - 32) as char else c
  }

  /** Python's `str.upper()` on ASCII text: no lower-case letter is left, each
      letter becomes the capital at the same place in the alphabet, and every
      other character is kept. */
  function Upper(s: string): (r: string)
    ensures |r| == |s|
    ensures forall i :: 0 <= i < |r| ==> !('a' <= r[i] <= 'z')
    ensures forall i :: 0 <= i < |s| && 'a' <= s[i] <= 'z' ==>
              'A' <= r[i] <= 'Z' && r[i] as int - 'A' as int == s[i] as int - 'a' as int
    ensures forall i :: 0 <= i < |s| && !('a' <= s[i] <= 'z') ==> r[i] == s[i]
  {
    seq(|s|, i requires 0 <= i < |s| => UpperChar(s[i]))
  }
}

=== FILE: wrappers.dfy ===
/** Optional values and the outcome of a browser request. */
module Wrappers {

  /** A value that may be missing: JavaScript's `null`/`undefined`, Python's `None`. */
  datatype Option<+T> = None | Some(value: T)

  /** How an awaited `fetch` ended: a response with status ok and its parsed
      body, or anything that lands in the handler's `catch`. */
  datatype Outcome<+T> = Done(payload: T) | Failed
}
